=== FILE: README.md ===
# player_server reconciliation core in Dafny

This project models the part of player_server that keeps a store of baseball
player records in step with a CSV snapshot:

- the record parser (`playerFromCsvLine` with `intFromString`/`dateFromString`);
- the store operations on the `players` table and on the one-row `config`
  table that holds the last file hash;
- the two reconcilers:
  - the incremental one of `db/db.go` (hash check, then an upsert per record);
  - the bulk one of `api-service/db/db.go` (offline flag, drop, recreate,
    `LOAD DATA`, online, store hash);
- the `GetEnvVarAsBool` flag parser that picks the SQL engine.

Modules, one per concern:

| file | module | models |
|---|---|---|
| outcomes.dfy | `Outcomes` | `Option`, `Result`, and the error kinds the code returns |
| decimal.dfy | `Decimal` | `strconv.Atoi` on 64-bit `int`, and decimal spellings |
| calendar.dfy | `Calendar` | `time.Parse("2006-01-02", s)`, Go's zero `time.Time`, `Time.Add` |
| players.dfy | `Players` | the 24-column `Player` row |
| record.dfy | `Record` | `intFromString`, `dateFromString`, `playerFromCsvLine` |
| envflag.dfy | `EnvFlag` | `GetEnvVarAsBool` (`strings.TrimSpace`, `strings.ToLower`, token check) |
| store.dfy | `Store` | table and config operations, paging, the hash upsert, ignoring bulk insert |
| incremental.dfy | `Incremental` | `PopulatePlayer` of `db/db.go` |
| bulk.dfy | `Bulk` | `FetchPlayer`/`FetchPlayers`, `dropTable`, `doDataLoad` and `PopulatePlayer` of `api-service/db/db.go` |

How the store is represented:

- The `players` table is a sequence of rows in insertion order. Inserts append,
  which is the order SQLite returns an unordered `SELECT` in (see "Left out"
  for MySQL). The key invariant (`UniqueIds`) is kept by every operation. Keys
  are compared exactly; MySQL's case-insensitive collation is listed under
  "Left out".
- The `config` table is a map from row id to hash.
- Statements are atomic.
- Driver failures the code reacts to are explicit parameters: a failed hash
  read, a failing stage of the hash upsert, a failed per-record lookup or
  write, a failed DROP, a failed LOAD. The same goes for a nil database handle.
- The file's digest, whether the file exists, its records, and what the server
  loads from it are all inputs.

Two engines are modelled (`Store.Dialect`), because the code's behaviour
depends on them:

- **RowsAffected.** SQLite counts the rows an UPDATE matched. MySQL (the Go
  driver without `clientFoundRows`) counts the rows it changed. So on MySQL,
  rewriting the hash already stored reports zero rows, and the follow-up INSERT
  fails on the key.
- **LIMIT with a negative number.** MySQL rejects it as a syntax error. SQLite
  reads a negative offset as 0 and a negative count as "no limit".

The api-service only speaks MySQL.

Behaviours of the code a reader might not expect:

- The incremental reconciler short-circuits whenever the new hash equals the
  stored one, including when both are empty (`db/db.go:380`). Only the bulk
  one requires a non-empty hash (`api-service/db/db.go:282`).
- The incremental reconciler stores the new hash *before* it touches any row
  (`db/db.go:385-389`), not after a successful reload. A read error in the file
  then ends the cycle with the hash already stored. Every later cycle over that
  file short-circuits, so the rows written before the bad record are all the
  file contributes until it changes (`Incremental.Reloaded` with
  `Incremental.SecondRunIsNoOp`). The reader holds every record to the header's
  field count, so a data record of another width is such a read error. Only a
  header with fewer than 24 fields lets a well-formed record reach
  `playerFromCsvLine` too short; it indexes out of range on the first data
  record and the runtime stops the process, with the hash stored and no row
  written, so the old table stays as it was
  (`Incremental.ShortHeaderKeepsOldTable`). With a full header no record
  panics (`Incremental.FullHeaderNeverPanics`). Short records are only reached
  on this reload path: every earlier exit returns before the file is opened.
- The bulk reconciler stores the hash even after a failed drop or load. See
  Findings.

## Model

| member | source | states |
|---|---|---|
| Decimal.Atoi | db/db.go:446-453 | `strconv.Atoi` succeeds exactly on an optional sign followed by one or more ASCII digits whose value fits in 64 bits, and then returns that value |
| Decimal.AtoiFormatInt | api-service/utils/utils.go:49-56 | every 64-bit integer's decimal spelling parses back to that integer |
| Calendar.ParseDate | db/db.go:455-462 | a successful `time.Parse("2006-01-02", s)` yields a real date with a four-digit year whose canonical spelling is exactly `s` |
| Calendar.ParseDateIff | api-service/utils/utils.go:58-65 | the layout accepts a string exactly when it is the zero-padded `YYYY-MM-DD` spelling of a real date, and then yields that date |
| Record.IntFromString | db/db.go:446-453 | the parsed value when `s` is a valid 64-bit decimal, the caller's default otherwise |
| Record.IntFieldRoundTrip | api-service/utils/utils.go:49-56 | a 64-bit integer written in decimal reads back as itself, whatever the default |
| Record.DateFromString | db/db.go:455-462 | midnight UTC of the date for a valid `YYYY-MM-DD`, the caller's default otherwise |
| Record.DateFromStringIff | api-service/utils/utils.go:58-65 | the canonical spelling of any real date gives that date's midnight, and a string that spells no date gives the default |
| Record.ParseRecord | db/db.go:464-546 | each of the 24 columns is its field read as that column's type: empty is the zero value, text is copied, numbers and dates are parsed with their fallbacks |
| Record.ParseRecordCopiesText | db/db.go:471-543 | `playerID` is `rec[0]` verbatim, even when empty, and every text column is its field verbatim |
| Record.ParseRecordEmptyIsZero | db/db.go:475-543 | an empty field leaves its column at 0, "" or the zero time |
| Record.ParseRecordIntDefaults | db/db.go:475-524 | a non-empty number field is its value when it parses, else 1970, 7, 11, 1998, 4, 21, 180 or 75 by column |
| Record.ParseRecordDateDefaults | db/db.go:464-537 | a non-empty unparsable debut is `now` minus 30×365×24 h and final game is `now` minus 5×365×24 h; a valid date is its midnight UTC |
| Record.ParseRenderedRecord | db/db.go:464-546 | writing a representable player as a CSV record and parsing it back gives the same player, whatever the clock says |
| EnvFlag.GetEnvVarAsBool | utils/utils.go:35-43 | a true default always gives true |
| EnvFlag.GetEnvVarAsBoolSpec | api-service/utils/utils.go:39-47 | the flag is true exactly when the default is true or the value is `1`, `y`, `yes` or `true` in any letter case with only white space around it |
| EnvFlag.GetEnvVarAsBoolExamples | utils/utils.go:35-43 | `"  YES "` is true; `"0"`, `"false"` and `""` yield the default |
| EnvFlag.CaseInsensitive | utils/utils.go:38 | values equal up to letter case give the same flag |
| EnvFlag.UpperCaseIgnored | api-service/utils/utils.go:42 | upper-casing a value does not change the flag |
| EnvFlag.SurroundingSpaceIgnored | utils/utils.go:37 | white space around a value does not change the flag |
| EnvFlag.NormaliseIdempotent | utils/utils.go:36-38 | trim-then-lower-case is idempotent, and the flag depends only on that normal form |
| EnvFlag.TrimSpaceOf | utils/utils.go:37 | trimming removes exactly the white space around a core that neither starts nor ends with white space |
| Store.DialectFor | db/db.go:54-62 | MySQL is used exactly when `USE_MYSQL` is a truthy token |
| Store.FetchPlayer | db/db.go:271-293 | "absent, no error" exactly when no row has the key; otherwise a row of the table with that key |
| Store.FetchPlayerFindsRow | db/db.go:271-293 | under unique keys, fetching any row's key returns that row |
| Store.DoesPlayerExist | db/db.go:252-263 | true exactly when a row has the key, and false without error otherwise |
| Store.InsertPlayer | db/db.go:165-207 | a taken key is refused with a duplicate-key error; otherwise the key then fetches `p`, every other key fetches what it did, the key set grows by `p`'s key alone, keys stay unique |
| Store.UpdatePlayer | db/db.go:209-250 | a missing key changes nothing and is no error; the key set is unchanged; keys stay unique |
| Store.UpdatePlayerFetch | db/db.go:209-250 | after an update the key fetches `p` if it was present, and every other key fetches what it did |
| Store.DeletePlayer | db/db.go:265-269 | the key is gone, exactly the rows with other keys remain, and every other key fetches what it did |
| Store.FetchPlayers | db/db.go:295-324 | `page <= 0` is every row in storage order; otherwise the rows from `(page-1)*size` up to `size` more (clamped to the table); negative LIMIT numbers are a syntax error on MySQL and no limit on SQLite |
| Store.PagesTile | db/db.go:295-300 | pages 1..n of one size, concatenated, are exactly the first n×size rows (or all of them) |
| Store.GetFileHash | db/db.go:326-335 | the hash of config row 1; a missing row is "no rows" and a driver failure is an error |
| Store.PrevHash | db/db.go:375-378 | the stored hash, or "" when it cannot be read |
| Store.UpdateFileHash | db/db.go:337-355 | a clean upsert leaves row 1 holding the hash and every other row alone; an INSERT is issued only when the UPDATE reported zero rows; on MySQL, rewriting the stored hash is a duplicate-key error; any failure leaves the config as before or with the hash |
| Store.HashRoundTrip | api-service/db/db.go:204-233 | after a clean upsert the hash read returns the hash written |
| Store.InsertIgnoreEffect | api-service/db/db.go:252-263 | after `LOAD DATA LOCAL` a key fetches its existing row if it had one, else its first row in the file; keys stay unique |
| Incremental.UpsertRecord | db/db.go:417-436 | a healthy record leaves its key fetching the parsed player (update when present, insert when absent); a failed lookup or write changes nothing; no key disappears |
| Incremental.UpsertLines | db/db.go:401-437 | the loop never removes a key, keeps keys unique, never writes the hash, and stops with an error exactly when a data record cannot be read or indexed: a read error gives the reader's error, and a well-formed record too short to index (reached first) panics |
| Incremental.UpsertLinesOverlay | db/db.go:401-437 | after the loop each key fetches the last player successfully written for it, or its old row when none was |
| Incremental.PopulatePlayer | db/db.go:357-444 | for any file, whatever its records: nil handle and unhashable file are errors; nothing is written exactly when the file hash equals the stored one (an unreadable one counting as ""), and that case reports no error; otherwise the hash write is the first statement and the only hash write; rows are never removed |
| Incremental.Reloaded | db/db.go:385-437 | after a stored hash, the hash reads back, each key fetches the last player written for it or its old row, and the cycle fails exactly when a data record cannot be read or indexed |
| Incremental.HashWriteFailureKeepsRows | db/db.go:385-389 | a failed hash write returns an error before any row is touched |
| Incremental.AbsentKeysUntouched | db/db.go:401-437 | a key no data record carries fetches the same row after the loop |
| Incremental.EntryOf | db/db.go:403-416 | a data record becomes a player exactly when it is well-formed, has the header's field count, and has at least the 24 fields the parser indexes; it panics exactly when it is well-formed with the header's count but too short |
| Incremental.ShortHeaderKeepsOldTable | db/db.go:385-417 | with a header of fewer than 24 fields, a changed file makes the cycle store the hash and stop at the first data record with no row written (a panic exactly when that record is well-formed with the header's count); the hash reads back and the next cycle over the same file writes nothing |
| Incremental.FullHeaderNeverPanics | db/db.go:403-416 | with a header of at least 24 fields no pass ends in a panic |
| Incremental.SecondRunIsNoOp | db/db.go:375-389 | after a cycle whose hash read and hash write succeed, a second cycle over the same file writes nothing, changes nothing and reports no error, even with a later clock |
| Bulk.FetchPlayer | api-service/db/db.go:141-167 | refused with an offline error exactly while offline; otherwise the store's fetch-by-key |
| Bulk.FetchPlayers | api-service/db/db.go:169-202 | refused while offline; otherwise the same paging as the store's on MySQL |
| Bulk.DropTable | api-service/db/db.go:235-242 | an empty table name is refused before any statement is sent |
| Bulk.DoDataLoad | api-service/db/db.go:244-264 | a missing file, and then an empty table name, are refused before any statement is sent; otherwise the load is sent and succeeds exactly when the server loads the file |
| Bulk.PopulatePlayer | api-service/db/db.go:266-324 | the cycle short-circuits exactly for a non-empty hash equal to the stored one; otherwise it runs offline, drop, create, load, online, store-hash in that order, is offline during the first four, ends online, and returns only the hash write's error |
| Bulk.ReadsRefusedDuringReload | api-service/db/db.go:289-309 | every read issued while the table is dropped, recreated or loaded is refused |
| Bulk.OnlineStatesAreBeforeOrAfter | api-service/db/db.go:289-309 | starting online, every state of the cycle in which reads are served already holds the table the cycle ends with, so readers see the old table or the final one and nothing in between |
| Bulk.HashPersistedWhateverTheLoad | api-service/db/db.go:303-319 | on the reload path, with a clean hash write and a stored hash different from the new one, the new hash is stored and no error is returned, whether or not the drop, the file check or the load failed |
| Bulk.ReloadedTableIsFile | api-service/db/db.go:293-306 | after a reload whose drop and load succeed, each key fetches its first row in the file |
| Bulk.StaleTableAfterFailedLoad | api-service/db/db.go:282-319 | starting from a stored hash that differs from the file's, a successful drop followed by a failed load returns no error, leaves the table empty with the file's hash stored, and makes the next cycle over that file (hash read cleanly) a no-op |
| Bulk.PopulatePlayerRetrying | api-service/db/db.go:266-324 | the same short-circuit and offline window as the bulk cycle; a failed drop or load is returned as the error and leaves the stored hash unchanged; when drop and load succeed the cycle is exactly the bulk cycle |
| Bulk.RetryingKeepsServing | api-service/db/db.go:282-319 | with the corrected cycle, a failed or complete load of the file, and a clean hash read, a stored hash equal to the file's hash still comes with the file's table |

## Left out

- Connecting, the retry and back-off loop, and pool settings (`init`/`connect` in both db files). These are I/O and sleeping. A nil handle is modelled as `connected == false`.
- `createTables` DDL and its `log.Fatal`. Both tables are taken to exist after it.
- SHA-256 (`GetFileHash` in both utils files). It is a foreign library, so the digest is an input: `None` when the file cannot be read.
- `encoding/csv` tokenising. The file is a sequence of records, each either its fields or a read error. The reader's rule that every record has as many fields as the first one is modelled: a data record of another width than the header is a read error. A header that is itself a read error is taken to fix no width; Go's reader still takes the width from the fields it managed to read, which the model's read error does not carry. A well-formed data record with fewer than 24 fields (possible only under a header that short) is modelled as a panic that ends the cycle (`Panicked`). The process exit and restart that follow are not modelled.
- `os.Open` failing after the hash was computed. The code calls `log.Fatal` there.
- `LOAD DATA LOCAL INFILE` parsing. The server's reading of the file is an input (`Bulk.Load`). The load is atomic: all rows or none.
- `DoesFileExist` and `EnsureDirectory`. These are file-system I/O, and existence is an input.
- Logging, timing output and `os.Getwd`. They have no effect on state.
- HTTP routes and `main` (scheduling goroutine, sleeps). Reconciler and readers are not interleaved: each operation is atomic. The bulk cycle's intermediate states are exposed through its event trace instead.
- Scan errors of a returned row, and a read failing for a reason other than the offline flag, in `FetchPlayer`/`FetchPlayers`. Only engine-level paging errors are modelled.
- Incremental.PopulatePlayer: takes one clock reading `now` for the whole cycle. `playerFromCsvLine` calls `time.Now()` twice per record, once for each date default (db/db.go:468-469), so default dates could differ by the time the loop takes.
- Record.ParseRecordDateDefaults: counts both date defaults of a record back from the same `now`. The code reads the clock separately for each (db/db.go:468 and 469), so the two readings may differ by a few nanoseconds.
- Store.FetchPlayers: does not model Go's 64-bit wrap-around of `(page-1)*pageSize`.
- Store.FetchPlayers: pages in insertion order, which is SQLite's order for an unordered `SELECT`. On MySQL (InnoDB) the same query returns rows in primary-key order (db/db.go:296-299), so there pages follow key order; that order and MySQL's key collation are not modelled.
- Bulk.FetchPlayers: pages the table in the order `LOAD DATA` inserted the file's rows. MySQL returns them in primary-key order (api-service/db/db.go:174-177), which is not modelled.
- Store.InsertPlayer: refuses only a taken key. MySQL 8 in its default strict mode (`STRICT_TRANS_TABLES` with `NO_ZERO_DATE`) also refuses a row whose values do not fit the columns of db/db.go:126-149: text longer than `varchar(60)`, a number outside the 32-bit `int` range, and the zero `time.Time` that an empty debut or final-game field leaves (`Record.ParseRecordEmptyIsZero`), which the Go MySQL driver sends as `0000-00-00`. On MySQL such a record's write fails and the incremental loop skips it; the model shows that only as a `WriteFails` fault, and column types are not modelled.
- Store.UpdatePlayer: the same strict-mode refusals on MySQL (text over `varchar(60)`, a number outside 32 bits, the zero date) make an update fail; they are not modelled.
- Store.FetchPlayer: compares keys exactly. MySQL's default collation (`utf8mb4_0900_ai_ci` on MySQL 8) compares `varchar` keys ignoring case and accents, so on MySQL `"Abc"` and `"abc"` are the same key; it does not pad trailing spaces.
- Store.DoesPlayerExist: compares keys exactly; under that collation the MySQL lookup also matches keys that differ in case or accents.
- Store.InsertPlayer: refuses a key only when an identical key is stored; on MySQL the primary key also refuses a key that equals a stored one under the collation.
- Store.UpdatePlayer: its WHERE matches the identical key only; on MySQL it also matches keys equal under the collation.
- Store.InsertIgnoreEffect: `LOAD DATA` skips a file row only when its key is identical to one already present; on MySQL a key equal under the collation is skipped too.
- Store.UniqueIds: states that no two rows carry identical keys. MySQL's primary key makes keys unique under the collation, a stronger property the model does not state.
- Column storage: MySQL's `int` (32-bit) and `DATE` columns are not modelled. The model stores the parsed Go value with the time of day kept; it does not follow MySQL's range and zero-date refusals (see Store.InsertPlayer above) or SQLite's own storage of these values.
- EnvFlag.GetEnvVarAsBool: lower-cases ASCII letters only, over characters rather than UTF-8 bytes. No other character lower-cases to a letter of `1`, `y`, `yes` or `true`, so the result is the same. Invalid UTF-8 is not modelled.

## Findings

| source | as written | input that shows it | evidently intended | confidence | as-written member | corrected member |
|---|---|---|---|---|---|---|
| api-service/db/db.go:293-319 | the new hash is stored after the reload even when `dropTable` or `doDataLoad` failed, and the error is only logged | a changed file whose DROP succeeds but whose `LOAD DATA` fails once (a transient server error): the table is left empty while config row 1 holds the file's hash, so every later cycle short-circuits and the table stays empty until the file changes | store the hash only after a successful reload, so that the next cycle reloads again | medium; not executed | Bulk.StaleTableAfterFailedLoad | Bulk.PopulatePlayerRetrying |

`Bulk.StaleTableAfterFailedLoad` is stated about the as-written `Bulk.PopulatePlayer`. `Bulk.RetryingKeepsServing` proves the intended property of the corrected `Bulk.PopulatePlayerRetrying`: if a stored hash equal to the file's hash came with the file's table before the cycle, it still does afterwards. This holds for cycles that read the stored hash cleanly. A failed hash read still sends even the corrected cycle down the reload path.

=== FILE: bulk.dfy ===
/** The bulk reconciler of api-service/db/db.go: when the file's hash differs
    from the stored one, take the service offline, drop and recreate the
    `players` table, bulk-load the file into it, bring the service back online
    and store the new hash. Reads are refused while the service is offline. */
module Bulk {
  import opened Outcomes
  import opened Players
  import Store

  /** The api-service's store and its `isOffline` flag; `connected` is false
      for a nil handle. */
  datatype Service = Service(connected: bool, rows: seq<Player>, config: map<int, string>, offline: bool)

  /** The steps of a reload, in order. */
  datatype Op = GoOffline | DropPlayers | CreateTables | LoadPlayers | GoOnline | PersistHash(hash: string)

  /** A step and the state right after it. */
  datatype Event = Event(op: Op, after: Service)

  /** A cycle: the final state, the steps taken, and the error returned. */
  datatype Reload = Reload(service: Service, events: seq<Event>, err: Option<Err>)

  /** What `LOAD DATA LOCAL INFILE` makes of the file: its rows in file order,
      or a failed statement. */
  datatype Load = Loaded(rows: seq<Player>) | LoadFailed

  /** Driver failures during one cycle: the hash read, the DROP, the hash upsert. */
  datatype Faults = Faults(hashRead: bool, drop: bool, hashWrite: Store.HashFault)

  /** Whether a statement was sent to the server, and the error returned. */
  datatype Exec = Exec(issued: bool, err: Option<Err>)

  const PlayersTable: string := "players"

  /** `FetchPlayer(id)`: refused while offline, otherwise the store's
      fetch-by-key. */
  function FetchPlayer(s: Service, id: string): (r: Result<Option<Player>>)
    ensures r.Failure? <==> s.offline
    ensures r.Failure? ==> r.error == Offline
    ensures r.Success? ==> r.value == Store.FetchPlayer(s.rows, id)
  {
    if s.offline then Failure(Offline) else Success(Store.FetchPlayer(s.rows, id))
  }

  /** `FetchPlayers(page, pageSize)`: refused while offline, otherwise the same
      paging as the store's, on MySQL. */
  function FetchPlayers(s: Service, page: int, pageSize: int): (r: Result<seq<Player>>)
    ensures s.offline ==> r == Failure(Offline)
    ensures !s.offline ==> r == Store.FetchPlayers(s.rows, page, pageSize, Store.MySql)
    ensures r.Success? && page <= 0 ==> r.value == s.rows
  {
    if s.offline then Failure(Offline) else Store.FetchPlayers(s.rows, page, pageSize, Store.MySql)
  }

  /** `dropTable(tableName)`: an empty name is refused before any statement
      is sent; otherwise the DROP is sent and may fail. */
  function DropTable(tableName: string, fails: bool): (r: Exec)
    ensures tableName == "" ==> r == Exec(false, Some(InvalidArgument))
    ensures tableName != "" ==> r.issued && (r.err.Some? <==> fails)
  {
    if tableName == "" then Exec(false, Some(InvalidArgument))
    else Exec(true, if fails then Some(DriverError) else None)
  }

  /** `doDataLoad(path, tableName)`: a missing file and then an empty name are
      refused before any statement is sent; otherwise the load is sent and
      succeeds exactly when the server loads the file. */
  function DoDataLoad(fileExists: bool, tableName: string, load: Load): (r: Exec)
    ensures !fileExists ==> r == Exec(false, Some(PathMissing))
    ensures fileExists && tableName == "" ==> r == Exec(false, Some(InvalidArgument))
    ensures fileExists && tableName != "" ==> r.issued && (r.err.None? <==> load.Loaded?)
  {
    if !fileExists then Exec(false, Some(PathMissing))
    else if tableName == "" then Exec(false, Some(InvalidArgument))
    else Exec(true, if load.Loaded? then None else Some(DriverError))
  }

  /** The table a successful load leaves in `rows`: the ignoring insert of the
      file's rows. */
  function AfterLoad(rows: seq<Player>, load: Load): seq<Player> {
    match load
    case Loaded(incoming) => Store.InsertIgnore(rows, incoming)
    case LoadFailed => rows
  }

  /** The cycle takes the short path: connected, hashed, and the hash is
      non-empty and equal to the stored one. */
  predicate Unchanged(s: Service, fileHash: Option<string>, faults: Faults) {
    s.connected && fileHash.Some? && fileHash.value != ""
      && fileHash.value == Store.PrevHash(s.config, faults.hashRead)
  }

  /** The ops of a reload, in order. */
  function ReloadOps(h: string): seq<Op> {
    [GoOffline, DropPlayers, CreateTables, LoadPlayers, GoOnline, PersistHash(h)]
  }

  /** The reload steps up to going online again: offline, drop (its error is
      only logged), recreate (the table always exists afterwards), load (its
      error is only logged), online. */
  function ReloadTable(s: Service, fileExists: bool, load: Load, dropFails: bool): (events: seq<Event>)
    ensures |events| == 5
  {
    var offline := s.(offline := true);
    var dropped := if DropTable(PlayersTable, dropFails).err.None? then offline.(rows := []) else offline;
    var created := dropped;
    var loaded := if DoDataLoad(fileExists, PlayersTable, load).err.None?
      then created.(rows := AfterLoad(created.rows, load)) else created;
    var online := loaded.(offline := false);
    [Event(GoOffline, offline), Event(DropPlayers, dropped), Event(CreateTables, created),
     Event(LoadPlayers, loaded), Event(GoOnline, online)]
  }

  /** `PopulatePlayer(path)`: `fileHash` is the digest of the file (`None` when
      it cannot be read), `fileExists` what `DoesFileExist(path)` says, and
      `load` what the server makes of the file. */
  function PopulatePlayer(s: Service, fileHash: Option<string>, fileExists: bool, load: Load, faults: Faults): (r: Reload)
    ensures !s.connected ==> r.err == Some(NotConnected)
    ensures s.connected && fileHash.None? ==> r.err == Some(HashUnavailable)
    ensures r.events == [] <==> !s.connected || fileHash.None? || Unchanged(s, fileHash, faults)
    ensures r.events == [] ==> r.service == s
    ensures r.events != [] ==>
      && |r.events| == 6
      && (forall i | 0 <= i < 6 :: r.events[i].op == ReloadOps(fileHash.value)[i])
      && (forall i | 0 <= i < 6 :: r.events[i].after.offline <==> i < 4)
      && r.service == r.events[5].after
      && !r.service.offline
    ensures r.events != [] ==>
      r.err == Store.UpdateFileHash(s.config, fileHash.value, Store.MySql, faults.hashWrite).err
  {
    if !s.connected then Reload(s, [], Some(NotConnected))
    else match fileHash
      case None => Reload(s, [], Some(HashUnavailable))
      case Some(h) =>
        if h != "" && h == Store.PrevHash(s.config, faults.hashRead) then Reload(s, [], None)
        else
          var table := ReloadTable(s, fileExists, load, faults.drop);
          var online := table[4].after;
          var hw := Store.UpdateFileHash(online.config, h, Store.MySql, faults.hashWrite);
          var persisted := online.(config := hw.config);
          Reload(persisted, table + [Event(PersistHash(h), persisted)], hw.err)
  }

  /** While the table is dropped, recreated and loaded, every read is refused. */
  lemma ReadsRefusedDuringReload(s: Service, fileHash: Option<string>, fileExists: bool, load: Load, faults: Faults,
                                 id: string, page: int, pageSize: int)
    ensures var r := PopulatePlayer(s, fileHash, fileExists, load, faults);
      forall i | 0 <= i < |r.events| && r.events[i].op in {GoOffline, DropPlayers, CreateTables, LoadPlayers} ::
        FetchPlayer(r.events[i].after, id) == Failure(Offline)
        && FetchPlayers(r.events[i].after, page, pageSize) == Failure(Offline)
  {
  }

  /** A reader never sees a half-built table: every state in which reads are
      served holds either the table from before the cycle or the one it ends
      with. */
  lemma OnlineStatesAreBeforeOrAfter(s: Service, fileHash: Option<string>, fileExists: bool, load: Load, faults: Faults)
    requires !s.offline
    ensures var r := PopulatePlayer(s, fileHash, fileExists, load, faults);
      forall i | 0 <= i < |r.events| && !r.events[i].after.offline :: r.events[i].after.rows == r.service.rows
  {
  }

  /** The new hash is stored even when the drop or the load failed; with a
      clean hash write the cycle reports no error at all, whatever happened to
      the table. */
  lemma HashPersistedWhateverTheLoad(s: Service, h: string, fileExists: bool, load: Load, faults: Faults)
    requires s.connected && !(h != "" && h == Store.PrevHash(s.config, faults.hashRead))
    requires faults.hashWrite == Store.NoHashFault
    requires !(Store.ConfigId in s.config && s.config[Store.ConfigId] == h)
    ensures var r := PopulatePlayer(s, Some(h), fileExists, load, faults);
      Store.GetFileHash(r.service.config, false) == Success(h) && r.err.None?
  {
  }

  /** Every key fetches, after a reload with a successful drop and load, its
      first row in the file. */
  lemma ReloadedTableIsFile(s: Service, h: string, incoming: seq<Player>, faults: Faults, id: string)
    requires s.connected && !(h != "" && h == Store.PrevHash(s.config, faults.hashRead)) && !faults.drop
    ensures var r := PopulatePlayer(s, Some(h), true, Loaded(incoming), faults);
      Store.FetchPlayer(r.service.rows, id) == Store.FetchPlayer(incoming, id)
  {
    Store.InsertIgnoreEffect([], incoming);
  }

  /** A table that is the file's: the ignoring load of its rows into an empty
      table. */
  function Image(fileRows: seq<Player>): seq<Player> {
    Store.InsertIgnore([], fileRows)
  }

  /** A short-circuited cycle would serve the file's table: whenever the stored
      hash is the (non-empty) file hash, the table holds the file's rows. */
  predicate Serves(s: Service, h: string, fileRows: seq<Player>) {
    h != "" && Store.ConfigId in s.config && s.config[Store.ConfigId] == h ==> s.rows == Image(fileRows)
  }

  lemma ImageNonEmpty(fileRows: seq<Player>)
    requires |fileRows| > 0
    ensures Image(fileRows) != []
  {
    Store.InsertIgnoreEffect([], fileRows);
    assert Store.FetchPlayer(fileRows, fileRows[0].playerID).Some?;
  }

  /** As written, one failed load after a successful drop leaves the table
      empty while the stored hash claims it holds the file; every later cycle
      over the same file short-circuits, so the table stays empty until the
      file changes. */
  lemma StaleTableAfterFailedLoad(s: Service, h: string, fileRows: seq<Player>, hashWrite: Store.HashFault,
                                  later: Load, laterFaults: Faults)
    requires s.connected && h != "" && |fileRows| > 0
    requires !(Store.ConfigId in s.config && s.config[Store.ConfigId] == h)
    requires hashWrite == Store.NoHashFault && !laterFaults.hashRead
    ensures var r := PopulatePlayer(s, Some(h), true, LoadFailed, Faults(false, false, hashWrite));
      && r.err.None? && r.service.rows == [] && !Serves(r.service, h, fileRows)
      && PopulatePlayer(r.service, Some(h), true, later, laterFaults).events == []
  {
    ImageNonEmpty(fileRows);
  }

  /** The reload as evidently intended: the new hash is stored only after both
      the drop and the load succeeded; otherwise the error is returned and the
      stored hash is left alone, so the next cycle reloads again. */
  function PopulatePlayerRetrying(s: Service, fileHash: Option<string>, fileExists: bool, load: Load, faults: Faults): (r: Reload)
    ensures r.events == [] <==> !s.connected || fileHash.None? || Unchanged(s, fileHash, faults)
    ensures r.events == [] ==> r.service == s
    ensures r.events != [] ==>
      && !r.service.offline
      && (forall i | 0 <= i < |r.events| :: r.events[i].after.offline <==> i < 4)
    ensures r.events != [] && (faults.drop || !fileExists || load.LoadFailed?) ==>
      r.err.Some? && r.service.config == s.config
    ensures !faults.drop && fileExists && load.Loaded? ==> r == PopulatePlayer(s, fileHash, fileExists, load, faults)
  {
    if !s.connected then Reload(s, [], Some(NotConnected))
    else match fileHash
      case None => Reload(s, [], Some(HashUnavailable))
      case Some(h) =>
        if h != "" && h == Store.PrevHash(s.config, faults.hashRead) then Reload(s, [], None)
        else
          var table := ReloadTable(s, fileExists, load, faults.drop);
          var online := table[4].after;
          var dropped := DropTable(PlayersTable, faults.drop);
          var loaded := DoDataLoad(fileExists, PlayersTable, load);
          if dropped.err.Some? then Reload(online, table, dropped.err)
          else if loaded.err.Some? then Reload(online, table, loaded.err)
          else
            var hw := Store.UpdateFileHash(online.config, h, Store.MySql, faults.hashWrite);
            var persisted := online.(config := hw.config);
            Reload(persisted, table + [Event(PersistHash(h), persisted)], hw.err)
  }

  /** With the corrected reload, a cycle over a file that reads the stored hash
      cleanly never leaves a stored hash that claims a table the store does not
      hold. */
  lemma RetryingKeepsServing(s: Service, h: string, fileRows: seq<Player>, fileExists: bool, load: Load, faults: Faults)
    requires Serves(s, h, fileRows)
    requires load == LoadFailed || load == Loaded(fileRows)
    requires !faults.hashRead
    ensures Serves(PopulatePlayerRetrying(s, Some(h), fileExists, load, faults).service, h, fileRows)
  {
  }
}

=== FILE: calendar.dfy ===
/** Calendar dates and instants, as far as the player parser needs them: Go's
    `time.Parse("2006-01-02", s)`, the zero `time.Time`, and `Time.Add`. */
module Calendar {
  import opened Outcomes
  import opened Decimal

  datatype Date = Date(year: int, month: int, day: int)

  /** An instant, in nanoseconds since January 1 of year 1, 00:00:00 UTC.
      That origin is Go's zero `time.Time`, so the zero value is `Time(0)`. */
  datatype Time = Time(nanos: int)

  const ZeroTime: Time := Time(0)
  const NanosPerHour: int := 3_600_000_000_000
  const NanosPerDay: int := 24 * NanosPerHour

  /** `t.Add(d)` for a duration `d` in nanoseconds. */
  function Add(t: Time, d: int): Time {
    Time(t.nanos + d)
  }

  predicate IsLeap(year: int) {
    year % 4 == 0 && (year % 100 != 0 || year % 400 == 0)
  }

  function DaysIn(month: int, year: int): int
    requires 1 <= month <= 12
  {
    if month == 2 then (if IsLeap(year) then 29 else 28)
    else if month == 4 || month == 6 || month == 9 || month == 11 then 30
    else 31
  }

  predicate ValidDate(d: Date) {
    1 <= d.month <= 12 && 1 <= d.day <= DaysIn(d.month, d.year)
  }

  /** The dates a `YYYY-MM-DD` layout can spell. */
  predicate Formattable(d: Date) {
    ValidDate(d) && 0 <= d.year <= 9999
  }

  /** The `YYYY-MM-DD` rendering of a date, zero-padded. */
  function FormatDate(d: Date): (s: string)
    requires Formattable(d)
    ensures |s| == 10
  {
    FixedDigits(d.year, 4) + "-" + FixedDigits(d.month, 2) + "-" + FixedDigits(d.day, 2)
  }

  /** `time.Parse("2006-01-02", s)`: four digits, `-`, two digits, `-`, two
      digits and nothing more; the month must be 1..12 and the day must exist in
      that month of that (proleptic Gregorian) year. `None` is a parse error. */
  function ParseDate(s: string): (r: Option<Date>)
    ensures r.Some? ==> Formattable(r.value) && FormatDate(r.value) == s
  {
    if |s| == 10 && s[4] == '-' && s[7] == '-'
       && AllDigits(s[..4]) && AllDigits(s[5..7]) && AllDigits(s[8..])
    then
      var d := Date(DigitsValue(s[..4]), DigitsValue(s[5..7]), DigitsValue(s[8..]));
      if ValidDate(d) then
        FixedDigitsOfValue(s[..4]);
        FixedDigitsOfValue(s[5..7]);
        FixedDigitsOfValue(s[8..]);
        assert s == s[..4] + "-" + s[5..7] + "-" + s[8..];
        Some(d)
      else None
    else None
  }

  /** Every date the layout can spell is parsed back to itself. */
  lemma FormatDateParses(d: Date)
    requires Formattable(d)
    ensures ParseDate(FormatDate(d)) == Some(d)
  {
    var s := FormatDate(d);
    assert s[..4] == FixedDigits(d.year, 4);
    assert s[5..7] == FixedDigits(d.month, 2);
    assert s[8..] == FixedDigits(d.day, 2);
    FixedDigitsValue(d.year, 4);
    FixedDigitsValue(d.month, 2);
    FixedDigitsValue(d.day, 2);
  }

  /** `time.Parse` accepts exactly the canonical spellings of real dates. */
  lemma ParseDateIff(s: string, d: Date)
    ensures ParseDate(s) == Some(d) <==> Formattable(d) && s == FormatDate(d)
  {
    if Formattable(d) && s == FormatDate(d) {
      FormatDateParses(d);
    }
  }

  function DaysBeforeMonth(month: int, year: int): int
    requires 1 <= month <= 12
  {
    var common := [0, 31, 59, 90, 120, 151, 181, 212, 243, 273, 304, 334][month - 1];
    if month > 2 && IsLeap(year) then common + 1 else common
  }

  /** Days from January 1 of year 1 to `d` in the proleptic Gregorian calendar. */
  function DaysSinceZero(d: Date): int
    requires ValidDate(d)
  {
    var y := d.year - 1;
    365 * y + y / 4 - y / 100 + y / 400 + DaysBeforeMonth(d.month, d.year) + d.day - 1
  }

  /** The instant `time.Parse` returns for a date: midnight UTC. */
  function MidnightUtc(d: Date): Time
    requires ValidDate(d)
  {
    Time(DaysSinceZero(d) * NanosPerDay)
  }
}

=== FILE: decimal.dfy ===
/** Decimal digit strings: Go's `strconv.Atoi` on a 64-bit platform, and the
    formatting functions it inverts. */
module Decimal {
  import opened Outcomes

  const MinInt64: int := -0x8000_0000_0000_0000
  const MaxInt64: int := 0x7fff_ffff_ffff_ffff

  predicate InInt64(n: int) {
    MinInt64 <= n <= MaxInt64
  }

  predicate IsDigit(c: char) {
    '0' <= c <= '9'
  }

  function DigitValue(c: char): nat
    requires IsDigit(c)
  {
    c as int - '0' as int
  }

  function Digit(n: nat): (c: char)
    requires n < 10
    ensures IsDigit(c) && DigitValue(c) == n
  {
    ('0' as int + n) as char
  }

  predicate AllDigits(s: string) {
    forall i | 0 <= i < |s| :: IsDigit(s[i])
  }

  function Pow10(n: nat): (p: nat)
    ensures p >= 1
  {
    if n == 0 then 1 else 10 * Pow10(n - 1)
  }

  /** Positional value of a digit string, most significant digit first.
      This is the reference meaning of a run of digits. */
  function DigitsValue(s: string): nat
    requires AllDigits(s)
  {
    if |s| == 0 then 0 else 10 * DigitsValue(s[..|s| - 1]) + DigitValue(s[|s| - 1])
  }

  /** The part of `s` after an optional leading sign. */
  function Unsigned(s: string): string {
    if |s| > 0 && (s[0] == '+' || s[0] == '-') then s[1..] else s
  }

  /** Syntax accepted by `strconv.Atoi` in base 10: an optional `+` or `-`,
      then one or more ASCII digits, and nothing else. */
  predicate IsDecimal(s: string) {
    |Unsigned(s)| > 0 && AllDigits(Unsigned(s))
  }

  function DecimalValue(s: string): int
    requires IsDecimal(s)
  {
    var magnitude: int := DigitsValue(Unsigned(s));
    if s[0] == '-' then -magnitude else magnitude
  }

  /** `strconv.Atoi(s)` returns a nil error exactly for these strings. */
  predicate ParsesAsInt(s: string) {
    IsDecimal(s) && InInt64(DecimalValue(s))
  }

  /** The scanning loop of `strconv.Atoi`: digits are folded in from the left,
      and the first non-digit is a syntax error. */
  function Accumulate(s: string, i: nat, acc: int): Option<int>
    requires i <= |s|
    decreases |s| - i
  {
    if i == |s| then Some(acc)
    else if !IsDigit(s[i]) then None
    else Accumulate(s, i + 1, 10 * acc + DigitValue(s[i]))
  }

  /** `strconv.Atoi`: `None` stands for a syntax or range error. */
  function Atoi(s: string): (r: Option<int>)
    ensures r.Some? <==> ParsesAsInt(s)
    ensures r.Some? ==> r.value == DecimalValue(s)
  {
    if |s| == 0 then None
    else
      var body := Unsigned(s);
      if |body| == 0 then None
      else
        AccumulateIsValue(body, 0);
        match Accumulate(body, 0, 0)
        case None => None
        case Some(n) =>
          var v := if s[0] == '-' then -n else n;
          if MinInt64 <= v <= MaxInt64 then Some(v) else None
  }

  /** The left fold of the scanning loop computes the positional value. */
  lemma {:induction false} AccumulateIsValue(s: string, i: nat)
    requires i <= |s| && AllDigits(s[..i])
    ensures Accumulate(s, i, DigitsValue(s[..i])) == if AllDigits(s) then Some(DigitsValue(s)) else None
    decreases |s| - i
  {
    if i == |s| {
      assert s[..i] == s;
    } else if !IsDigit(s[i]) {
      assert !AllDigits(s);
    } else {
      var next := s[..i + 1];
      assert next[..i] == s[..i];
      assert AllDigits(next);
      assert DigitsValue(next) == 10 * DigitsValue(s[..i]) + DigitValue(s[i]);
      AccumulateIsValue(s, i + 1);
    }
  }

  /** Shortest decimal rendering of a natural number (`strconv.Itoa` for n >= 0). */
  function FormatNat(n: nat): string
    decreases n
  {
    if n < 10 then [Digit(n)] else FormatNat(n / 10) + [Digit(n % 10)]
  }

  /** `strconv.Itoa`: a minus sign for negative numbers, then the digits. */
  function FormatInt(n: int): string {
    if n < 0 then "-" + FormatNat(-n) else FormatNat(n)
  }

  lemma {:induction false} FormatNatValue(n: nat)
    ensures |FormatNat(n)| > 0 && AllDigits(FormatNat(n))
    ensures DigitsValue(FormatNat(n)) == n
    decreases n
  {
    if n >= 10 {
      FormatNatValue(n / 10);
      var s := FormatNat(n);
      assert s[..|s| - 1] == FormatNat(n / 10);
    }
  }

  /** Every 64-bit integer survives `Itoa` followed by `Atoi`. */
  lemma AtoiFormatInt(n: int)
    requires InInt64(n)
    ensures Atoi(FormatInt(n)) == Some(n)
  {
    var s := FormatInt(n);
    if n < 0 {
      FormatNatValue(-n);
      assert Unsigned(s) == FormatNat(-n);
    } else {
      FormatNatValue(n);
      assert Unsigned(s) == FormatNat(n);
    }
  }

  /** Exactly `w` digits of `n`, with leading zeros: the layout of fixed-width
      date fields. */
  function FixedDigits(n: nat, w: nat): (s: string)
    ensures |s| == w && AllDigits(s)
  {
    if w == 0 then "" else FixedDigits(n / 10, w - 1) + [Digit(n % 10)]
  }

  /** A number below 10^w is read back from its `w`-digit rendering. */
  lemma {:induction false} FixedDigitsValue(n: nat, w: nat)
    requires n < Pow10(w)
    ensures DigitsValue(FixedDigits(n, w)) == n
  {
    if w > 0 {
      var s := FixedDigits(n, w);
      assert s[..w - 1] == FixedDigits(n / 10, w - 1);
      assert n / 10 < Pow10(w - 1);
      FixedDigitsValue(n / 10, w - 1);
    }
  }

  /** A digit string is re-rendered verbatim from its value at its own width. */
  lemma {:induction false} FixedDigitsOfValue(s: string)
    requires AllDigits(s)
    ensures DigitsValue(s) < Pow10(|s|)
    ensures FixedDigits(DigitsValue(s), |s|) == s
  {
    if |s| > 0 {
      var init := s[..|s| - 1];
      assert AllDigits(init);
      FixedDigitsOfValue(init);
      var v := DigitsValue(s);
      assert v / 10 == DigitsValue(init) && v % 10 == DigitValue(s[|s| - 1]);
      assert s == init + [s[|s| - 1]];
    }
  }
}

=== FILE: envflag.dfy ===
/** `GetEnvVarAsBool` (utils/utils.go and api-service/utils/utils.go): an
    environment value, trimmed of Unicode white space and lower-cased, is true
    when it is one of four tokens; anything else yields the caller's default.
    The value of the variable is passed in instead of read from the process. */
module EnvFlag {

  /** `unicode.IsSpace`: the Latin-1 spaces and the other Unicode White_Space
      characters. */
  predicate IsSpace(c: char) {
    || c == '\t' || c == '\n' || c == '\U{000B}' || c == '\U{000C}' || c == '\r' || c == ' '
    || c == '\U{0085}' || c == '\U{00A0}' || c == '\U{1680}'
    || ('\U{2000}' <= c <= '\U{200A}')
    || c == '\U{2028}' || c == '\U{2029}' || c == '\U{202F}' || c == '\U{205F}' || c == '\U{3000}'
  }

  predicate AllSpace(s: string) {
    forall i | 0 <= i < |s| :: IsSpace(s[i])
  }

  /** Neither end of `s` is white space (vacuously true of the empty string). */
  predicate Trimmed(s: string) {
    s == [] || (!IsSpace(s[0]) && !IsSpace(s[|s| - 1]))
  }

  function TrimLeft(s: string): string {
    if |s| > 0 && IsSpace(s[0]) then TrimLeft(s[1..]) else s
  }

  function TrimRight(s: string): string {
    if |s| > 0 && IsSpace(s[|s| - 1]) then TrimRight(s[..|s| - 1]) else s
  }

  /** `strings.TrimSpace`. */
  function TrimSpace(s: string): string {
    TrimRight(TrimLeft(s))
  }

  /** `unicode.ToLower` on ASCII letters; every other character is kept. No
      character outside `A`..`Z` lower-cases to a character of the four tokens,
      so the flag's value does not depend on the rest of Unicode case mapping. */
  function LowerChar(c: char): char {
    if 'A' <= c <= 'Z' then (c as int + 32) as char else c
  }

  function UpperChar(c: char): char {
    if 'a' <= c <= 'z' then (c as int - 32) as char else c
  }

  /** `strings.ToLower`. */
  function ToLower(s: string): (r: string)
    ensures |r| == |s| && forall i | 0 <= i < |s| :: r[i] == LowerChar(s[i])
  {
    seq(|s|, i requires 0 <= i < |s| => LowerChar(s[i]))
  }

  function ToUpper(s: string): (r: string)
    ensures |r| == |s| && forall i | 0 <= i < |s| :: r[i] == UpperChar(s[i])
  {
    seq(|s|, i requires 0 <= i < |s| => UpperChar(s[i]))
  }

  /** The normal form the flag is compared in. */
  function Normalise(value: string): string {
    ToLower(TrimSpace(value))
  }

  const Truthy: set<string> := {"1", "y", "yes", "true"}

  function GetEnvVarAsBool(value: string, fallback: bool): (b: bool)
    ensures fallback ==> b
  {
    if Normalise(value) in Truthy then true else fallback
  }

  /** `w` is `token` with any of its letters in upper case. */
  predicate CaseVariantOf(w: string, token: string) {
    |w| == |token| && forall i | 0 <= i < |w| :: w[i] == token[i] || w[i] == UpperChar(token[i])
  }

  predicate SpellsToken(w: string) {
    CaseVariantOf(w, "1") || CaseVariantOf(w, "y") || CaseVariantOf(w, "yes") || CaseVariantOf(w, "true")
  }

  /** `TrimLeft` drops a run of white space and stops at the first other character. */
  lemma {:induction false} TrimLeftDrops(s: string)
    ensures var r := TrimLeft(s);
      && |r| <= |s| && r == s[|s| - |r|..] && AllSpace(s[..|s| - |r|])
      && (r == [] || !IsSpace(r[0]))
  {
    if |s| > 0 && IsSpace(s[0]) {
      var t := s[1..];
      TrimLeftDrops(t);
      var r := TrimLeft(t);
      assert s[..|s| - |r|] == [s[0]] + t[..|t| - |r|];
    }
  }

  lemma {:induction false} TrimRightDrops(s: string)
    ensures var r := TrimRight(s);
      && |r| <= |s| && r == s[..|r|] && AllSpace(s[|r|..])
      && (r == [] || !IsSpace(r[|r| - 1]))
  {
    if |s| > 0 && IsSpace(s[|s| - 1]) {
      var t := s[..|s| - 1];
      TrimRightDrops(t);
      var r := TrimRight(t);
      assert s[|r|..] == t[|r|..] + [s[|s| - 1]];
    }
  }

  lemma {:induction false} TrimLeftOf(a: string, rest: string)
    requires AllSpace(a) && (rest == [] || !IsSpace(rest[0]))
    ensures TrimLeft(a + rest) == rest
  {
    if |a| > 0 {
      assert (a + rest)[1..] == a[1..] + rest;
      TrimLeftOf(a[1..], rest);
    } else {
      assert a + rest == rest;
    }
  }

  lemma {:induction false} TrimRightOf(w: string, b: string)
    requires AllSpace(b) && (w == [] || !IsSpace(w[|w| - 1]))
    ensures TrimRight(w + b) == w
  {
    if |b| > 0 {
      assert (w + b)[..|w + b| - 1] == w + b[..|b| - 1];
      TrimRightOf(w, b[..|b| - 1]);
    } else {
      assert w + b == w;
    }
  }

  /** Trimming removes exactly the white space around a trimmed core. */
  lemma TrimSpaceOf(a: string, w: string, b: string)
    requires AllSpace(a) && AllSpace(b) && Trimmed(w)
    ensures TrimSpace(a + w + b) == w
  {
    if w == [] {
      assert a + w + b == (a + b) + [];
      TrimLeftOf(a + b, []);
      assert TrimRight([]) == [];
    } else {
      assert a + w + b == a + (w + b);
      TrimLeftOf(a, w + b);
      TrimRightOf(w, b);
    }
  }

  /** Any string splits into white space, its trimmed core, and white space. */
  lemma TrimSpaceSplits(s: string) returns (lo: nat)
    ensures lo + |TrimSpace(s)| <= |s|
    ensures s == s[..lo] + TrimSpace(s) + s[lo + |TrimSpace(s)|..]
    ensures AllSpace(s[..lo]) && AllSpace(s[lo + |TrimSpace(s)|..]) && Trimmed(TrimSpace(s))
  {
    var l := TrimLeft(s);
    TrimLeftDrops(s);
    var w := TrimRight(l);
    TrimRightDrops(l);
    lo := |s| - |l|;
    var hi := lo + |w|;
    assert l == s[lo..];
    assert w == s[lo..hi];
    assert l[|w|..] == s[hi..];
    assert s == s[..lo] + s[lo..hi] + s[hi..];
    if w != [] {
      assert w[0] == l[0];
    }
  }

  lemma LowerKeepsSpace(c: char)
    ensures IsSpace(LowerChar(c)) <==> IsSpace(c)
  {
  }

  lemma ToLowerConcat(x: string, y: string)
    ensures ToLower(x + y) == ToLower(x) + ToLower(y)
  {
    assert forall i | 0 <= i < |x + y| :: ToLower(x + y)[i] == (ToLower(x) + ToLower(y))[i];
  }

  lemma ToLowerKeepsShape(s: string)
    ensures AllSpace(s) ==> AllSpace(ToLower(s))
    ensures Trimmed(s) ==> Trimmed(ToLower(s))
  {
    forall i | 0 <= i < |s|
      ensures IsSpace(ToLower(s)[i]) <==> IsSpace(s[i])
    {
      LowerKeepsSpace(s[i]);
    }
  }

  /** Trimming and case mapping commute, since case mapping keeps white space. */
  lemma TrimSpaceToLower(s: string)
    ensures TrimSpace(ToLower(s)) == ToLower(TrimSpace(s))
  {
    var lo := TrimSpaceSplits(s);
    var w := TrimSpace(s);
    var a, b := s[..lo], s[lo + |w|..];
    ToLowerConcat(a, w);
    ToLowerConcat(a + w, b);
    ToLowerKeepsShape(a);
    ToLowerKeepsShape(w);
    ToLowerKeepsShape(b);
    TrimSpaceOf(ToLower(a), ToLower(w), ToLower(b));
  }

  /** The result depends only on the normal form: normalising is idempotent,
      and a normalised value gives the same flag as the raw one. */
  lemma NormaliseIdempotent(value: string, fallback: bool)
    ensures Normalise(Normalise(value)) == Normalise(value)
    ensures GetEnvVarAsBool(Normalise(value), fallback) == GetEnvVarAsBool(value, fallback)
  {
    var lo := TrimSpaceSplits(value);
    var lw := ToLower(TrimSpace(value));
    ToLowerKeepsShape(TrimSpace(value));
    TrimSpaceOf([], lw, []);
    assert [] + lw + [] == lw;
    ToLowerIdempotent(TrimSpace(value));
    assert Normalise(lw) == lw;
  }

  lemma ToLowerIdempotent(s: string)
    ensures ToLower(ToLower(s)) == ToLower(s)
  {
    assert forall i | 0 <= i < |s| :: LowerChar(LowerChar(s[i])) == LowerChar(s[i]);
  }

  /** Values that differ only in letter case give the same flag. */
  lemma CaseInsensitive(v1: string, v2: string, fallback: bool)
    requires ToLower(v1) == ToLower(v2)
    ensures GetEnvVarAsBool(v1, fallback) == GetEnvVarAsBool(v2, fallback)
  {
    TrimSpaceToLower(v1);
    TrimSpaceToLower(v2);
  }

  /** Upper-casing a value does not change the flag. */
  lemma UpperCaseIgnored(value: string, fallback: bool)
    ensures GetEnvVarAsBool(ToUpper(value), fallback) == GetEnvVarAsBool(value, fallback)
  {
    assert ToLower(ToUpper(value)) == ToLower(value);
    CaseInsensitive(ToUpper(value), value, fallback);
  }

  /** White space around a value does not change the flag. */
  lemma SurroundingSpaceIgnored(a: string, value: string, b: string, fallback: bool)
    requires AllSpace(a) && AllSpace(b)
    ensures GetEnvVarAsBool(a + value + b, fallback) == GetEnvVarAsBool(value, fallback)
  {
    var lo := TrimSpaceSplits(value);
    var w := TrimSpace(value);
    var a', b' := value[..lo], value[lo + |w|..];
    assert a + value + b == (a + a') + w + (b' + b);
    TrimSpaceOf(a + a', w, b' + b);
  }

  lemma LowerSpellsToken(w: string)
    requires SpellsToken(w)
    ensures Trimmed(w) && ToLower(w) in Truthy
  {
    if CaseVariantOf(w, "1") {
      assert ToLower(w) == "1";
    } else if CaseVariantOf(w, "y") {
      assert ToLower(w) == "y";
    } else if CaseVariantOf(w, "yes") {
      assert ToLower(w) == "yes";
    } else {
      assert ToLower(w) == "true";
    }
  }

  lemma TokenFromLower(w: string)
    requires ToLower(w) in Truthy
    ensures SpellsToken(w)
  {
    var t := ToLower(w);
    assert forall i | 0 <= i < |w| :: LowerChar(w[i]) == t[i];
    if t == "1" {
      assert CaseVariantOf(w, "1");
    } else if t == "y" {
      assert CaseVariantOf(w, "y");
    } else if t == "yes" {
      assert CaseVariantOf(w, "yes");
    } else {
      assert CaseVariantOf(w, "true");
    }
  }

  /** A value whose normal form is a token spells that token between two runs
      of white space. */
  lemma TruthyIsSpelled(value: string) returns (lo: nat, hi: nat)
    requires Normalise(value) in Truthy
    ensures lo <= hi <= |value|
    ensures AllSpace(value[..lo]) && AllSpace(value[hi..]) && SpellsToken(value[lo..hi])
  {
    lo := TrimSpaceSplits(value);
    var w := TrimSpace(value);
    hi := lo + |w|;
    TokenFromLower(w);
    assert value[lo..hi] == w;
  }

  /** A token spelled between two runs of white space normalises to a token. */
  lemma SpelledIsTruthy(value: string, lo: nat, hi: nat)
    requires lo <= hi <= |value|
    requires AllSpace(value[..lo]) && AllSpace(value[hi..]) && SpellsToken(value[lo..hi])
    ensures Normalise(value) in Truthy
  {
    LowerSpellsToken(value[lo..hi]);
    assert value == value[..lo] + value[lo..hi] + value[hi..];
    TrimSpaceOf(value[..lo], value[lo..hi], value[hi..]);
  }

  /** The flag is true exactly when the default is true or the value is one of
      `1`, `y`, `yes`, `true` in any letter case, with only white space around it. */
  lemma GetEnvVarAsBoolSpec(value: string, fallback: bool)
    ensures GetEnvVarAsBool(value, fallback) <==>
      fallback || exists lo, hi | 0 <= lo <= hi <= |value| ::
        AllSpace(value[..lo]) && AllSpace(value[hi..]) && SpellsToken(value[lo..hi])
  {
    if Normalise(value) in Truthy {
      var lo, hi := TruthyIsSpelled(value);
    }
    if exists lo, hi | 0 <= lo <= hi <= |value| ::
         AllSpace(value[..lo]) && AllSpace(value[hi..]) && SpellsToken(value[lo..hi]) {
      var l: nat, h: nat :| l <= h <= |value| &&
         AllSpace(value[..l]) && AllSpace(value[h..]) && SpellsToken(value[l..h]);
      SpelledIsTruthy(value, l, h);
    }
  }

  /** A value with no white space at either end normalises to its lower case. */
  lemma NormaliseTrimmed(w: string)
    requires Trimmed(w)
    ensures Normalise(w) == ToLower(w)
  {
    TrimSpaceOf([], w, []);
    assert [] + w + [] == w;
  }

  /** `"  YES "` is true; `"0"`, `"false"` and the empty value are not tokens,
      so they yield the default. */
  lemma GetEnvVarAsBoolExamples(fallback: bool)
    ensures GetEnvVarAsBool("  YES ", false)
    ensures GetEnvVarAsBool("0", fallback) == fallback
    ensures GetEnvVarAsBool("false", fallback) == fallback
    ensures GetEnvVarAsBool("", fallback) == fallback
  {
    assert Normalise("  YES ") == "yes" by {
      assert "  YES " == "  " + "YES" + " ";
      TrimSpaceOf("  ", "YES", " ");
    }
    NormaliseTrimmed("0");
    NormaliseTrimmed("false");
  }
}

=== FILE: incremental.dfy ===
/** The incremental reconciler of db/db.go: compare the file's hash with the
    stored one, persist the new hash, then upsert every data record of the
    file keyed by `playerID`, never deleting a row. */
module Incremental {
  import opened Outcomes
  import opened Calendar
  import opened Players
  import opened Record
  import opened Store

  /** One record as `encoding/csv` hands it over: its fields, or a read error
      such as bad quoting. */
  datatype CsvLine = Line(fields: seq<string>) | Malformed

  /** How the driver treats the statements issued for one data record. */
  datatype RowFault = Healthy | LookupFails | WriteFails

  /** A store-changing statement, in the order it is issued (issued statements
      may still fail). */
  datatype Write = WriteHash(hash: string) | InsertRow(player: Player) | UpdateRow(player: Player)

  /** The store as the reconciler sees it; `connected` is false for a nil
      handle. */
  datatype Db = Db(connected: bool, rows: seq<Player>, config: map<int, string>)

  /** Driver failures during one cycle: the hash read, the hash upsert, and the
      statements of each data record (the first data record is index 0; a
      record beyond the sequence is healthy). */
  datatype Faults = Faults(hashRead: bool, hashWrite: HashFault, rows: seq<RowFault>)

  datatype Step = Step(rows: seq<Player>, writes: seq<Write>)
  datatype Pass = Pass(rows: seq<Player>, writes: seq<Write>, err: Option<Err>)
  datatype Sync = Sync(db: Db, writes: seq<Write>, err: Option<Err>)

  /** A data record as the loop reaches it: the parsed player, the read error
      that ends the loop with an error, or a record with fewer fields than the
      parser indexes, which panics and so stops the process. */
  datatype Entry = Row(player: Player) | BadRead | ShortRead

  function FaultAt(faults: seq<RowFault>, i: nat): RowFault {
    if i < |faults| then faults[i] else Healthy
  }

  /** The field count the reader holds every later record to: a reader built
      with `FieldsPerRecord` 0 takes it from the first record, here the header
      that the loop skips. A header that is itself a read error fixes none. */
  function HeaderWidth(lines: seq<CsvLine>): (w: Option<nat>)
    ensures w.Some? <==> |lines| > 0 && lines[0].Line?
    ensures w.Some? ==> w.value == |lines[0].fields|
  {
    if |lines| > 0 && lines[0].Line? then Some(|lines[0].fields|) else None
  }

  /** A record the loop cannot get past: a read error, a field count other
      than the header's (`ErrFieldCount`, also a read error), or too few
      fields for `playerFromCsvLine`, which indexes `rec[0]` to `rec[23]`
      unchecked. */
  predicate Unreadable(line: CsvLine, width: Option<nat>) {
    line.Malformed? || (width.Some? && |line.fields| != width.value) || |line.fields| < ColumnCount
  }

  /** One data record parsed with `playerFromCsvLine` at clock `now`, against
      the header's field count `width`. */
  function EntryOf(line: CsvLine, width: Option<nat>, now: Time): (e: Entry)
    ensures e.Row? <==> !Unreadable(line, width)
    ensures e.ShortRead? <==> line.Line? && (width.Some? ==> |line.fields| == width.value) && |line.fields| < ColumnCount
  {
    match line
    case Malformed => BadRead
    case Line(fields) =>
      if width.Some? && |fields| != width.value then BadRead
      else if |fields| < ColumnCount then ShortRead
      else Row(ParseRecord(fields, now))
  }

  /** The data records of the file in order; the first line is skipped unread,
      whatever it holds, but its field count still binds the rest. */
  function Entries(lines: seq<CsvLine>, now: Time): (es: seq<Entry>)
    ensures |es| == if |lines| == 0 then 0 else |lines| - 1
  {
    if |lines| <= 1 then []
    else seq(|lines| - 1, i requires 0 <= i < |lines| - 1 => EntryOf(lines[i + 1], HeaderWidth(lines), now))
  }

  /** One data record of the loop: look its key up, then update or insert.
      A failed lookup or write is logged and the record skipped; no row is
      ever removed. */
  function UpsertRecord(rows: seq<Player>, p: Player, fault: RowFault): (s: Step)
    ensures forall id :: (FetchPlayer(s.rows, id) ==
      if fault == Healthy && id == p.playerID then Some(p) else FetchPlayer(rows, id))
    ensures forall id :: HasId(rows, id) ==> HasId(s.rows, id)
    ensures UniqueIds(rows) ==> UniqueIds(s.rows)
    ensures fault == LookupFails ==> s.writes == []
    ensures fault != LookupFails ==>
      s.writes == (if HasId(rows, p.playerID) then [UpdateRow(p)] else [InsertRow(p)])
  {
    if fault == LookupFails then Step(rows, [])
    else if DoesPlayerExist(rows, p.playerID) then
      assert forall id :: (FetchPlayer(UpdatePlayer(rows, p), id) ==
        if id == p.playerID then Some(p) else FetchPlayer(rows, id))
      by {
        forall id { UpdatePlayerFetch(rows, p, id); }
      }
      Step(if fault == WriteFails then rows else UpdatePlayer(rows, p), [UpdateRow(p)])
    else
      var next := match InsertPlayer(rows, p)
        case Success(inserted) => inserted
        case Failure(_) => rows;
      assert HasId(next, p.playerID);
      Step(if fault == WriteFails then rows else next, [InsertRow(p)])
  }

  /** The players whose write succeeds from record `i` on, in file order, up to
      the first record the loop cannot get past. */
  function Applied(es: seq<Entry>, i: nat, faults: seq<RowFault>): seq<Player>
    decreases |es| - i
  {
    if i >= |es| || !es[i].Row? then []
    else (if FaultAt(faults, i) == Healthy then [es[i].player] else []) + Applied(es, i + 1, faults)
  }

  /** The last player in `ps` with key `id`, if any. */
  function Latest(ps: seq<Player>, id: string): (r: Option<Player>)
    ensures r.None? <==> forall q | q in ps :: q.playerID != id
    ensures r.Some? ==> exists i | 0 <= i < |ps| :: (ps[i] == r.value && r.value.playerID == id &&
      forall j | i < j < |ps| :: ps[j].playerID != id)
  {
    if |ps| == 0 then None
    else
      var rest := Latest(ps[1..], id);
      assert forall q | q in ps :: q == ps[0] || q in ps[1..];
      match rest
      case Some(q) =>
        var i :| 0 <= i < |ps| - 1 && ps[1..][i] == q && q.playerID == id &&
          forall j | i < j < |ps| - 1 :: ps[1..][j].playerID != id;
        assert ps[i + 1] == q;
        assert forall j | i + 1 < j < |ps| :: ps[j] == ps[1..][j - 1];
        Some(q)
      case None =>
        if ps[0].playerID == id then
          assert forall j | 0 < j < |ps| :: ps[j] in ps[1..];
          Some(ps[0])
        else None
  }

  lemma LatestCons(p: Player, ps: seq<Player>, id: string)
    ensures Latest([p] + ps, id) ==
      match Latest(ps, id)
      case Some(q) => Some(q)
      case None => if p.playerID == id then Some(p) else None
  {
    assert ([p] + ps)[1..] == ps;
  }

  /** What a key fetches after the players `ps` were written over `rows`. */
  function Overlay(rows: seq<Player>, ps: seq<Player>, id: string): Option<Player> {
    match Latest(ps, id)
    case Some(q) => Some(q)
    case None => FetchPlayer(rows, id)
  }

  /** Upserting `p` and then writing `ps` is writing `p` followed by `ps`. */
  lemma OverlayStep(rows: seq<Player>, p: Player, fault: RowFault, ps: seq<Player>, id: string)
    ensures Overlay(UpsertRecord(rows, p, fault).rows, ps, id) ==
      Overlay(rows, (if fault == Healthy then [p] else []) + ps, id)
  {
    if fault == Healthy {
      LatestCons(p, ps, id);
    } else {
      assert [] + ps == ps;
    }
  }

  /** Some record from `i` on stops the loop. */
  predicate StopsFrom(es: seq<Entry>, i: nat) {
    exists j | i <= j < |es| :: !es[j].Row?
  }

  /** Record `j` is the first from `i` on that stops the loop. */
  predicate FirstStop(es: seq<Entry>, i: nat, j: nat) {
    i <= j < |es| && !es[j].Row? && forall k | i <= k < j :: es[k].Row?
  }

  /** A record the loop gets past changes neither whether nor where it stops. */
  lemma StopsStep(es: seq<Entry>, i: nat)
    requires i < |es| && es[i].Row?
    ensures StopsFrom(es, i) <==> StopsFrom(es, i + 1)
    ensures forall j: nat :: FirstStop(es, i, j) <==> FirstStop(es, i + 1, j)
  {
  }

  /** The upsert loop from record `i` on: the first read error ends the run
      with that error and the first short record with a panic, keeping the
      earlier writes either way; the hash is never written here. */
  function UpsertLines(rows: seq<Player>, es: seq<Entry>, i: nat, faults: seq<RowFault>): (r: Pass)
    ensures forall id :: HasId(rows, id) ==> HasId(r.rows, id)
    ensures UniqueIds(rows) ==> UniqueIds(r.rows)
    ensures r.err.Some? <==> StopsFrom(es, i)
    ensures r.err == Some(Panicked) <==> exists j: nat :: FirstStop(es, i, j) && es[j].ShortRead?
    ensures r.err.Some? && r.err != Some(Panicked) ==> r.err == Some(CsvMalformed)
    ensures forall w | w in r.writes :: !w.WriteHash?
    decreases |es| - i
  {
    if i >= |es| then Pass(rows, [], None)
    else match es[i]
      case BadRead =>
        assert FirstStop(es, i, i);
        Pass(rows, [], Some(CsvMalformed))
      case ShortRead =>
        assert FirstStop(es, i, i);
        Pass(rows, [], Some(Panicked))
      case Row(p) =>
        var step := UpsertRecord(rows, p, FaultAt(faults, i));
        var rest := UpsertLines(step.rows, es, i + 1, faults);
        StopsStep(es, i);
        Pass(rest.rows, step.writes + rest.writes, rest.err)
  }

  /** After the loop, a key fetches the last player successfully written for
      it, or its old row when none was. */
  lemma {:induction false} UpsertLinesOverlay(rows: seq<Player>, es: seq<Entry>, i: nat, faults: seq<RowFault>, id: string)
    ensures FetchPlayer(UpsertLines(rows, es, i, faults).rows, id) == Overlay(rows, Applied(es, i, faults), id)
    decreases |es| - i
  {
    if i < |es| && es[i].Row? {
      var p := es[i].player;
      var fault := FaultAt(faults, i);
      UpsertLinesOverlay(UpsertRecord(rows, p, fault).rows, es, i + 1, faults, id);
      OverlayStep(rows, p, fault, Applied(es, i + 1, faults), id);
    }
  }

  /** The cycle is a no-op: connected, hashed, and the hash is unchanged. */
  predicate Unchanged(db: Db, fileHash: Option<string>, faults: Faults) {
    db.connected && fileHash.Some? && fileHash.value == PrevHash(db.config, faults.hashRead)
  }

  /** `PopulatePlayer(path)`: `fileHash` is the digest of the file (`None` when
      it cannot be read) and `lines` its records, header first. */
  function PopulatePlayer(db: Db, fileHash: Option<string>, lines: seq<CsvLine>, now: Time,
                          dialect: Dialect, faults: Faults): (r: Sync)
    ensures !db.connected ==> r.err == Some(NotConnected)
    ensures db.connected && fileHash.None? ==> r.err == Some(HashUnavailable)
    ensures r.writes == [] <==> !db.connected || fileHash.None? || Unchanged(db, fileHash, faults)
    ensures r.writes == [] ==> r.db == db
    ensures Unchanged(db, fileHash, faults) ==> r.err.None?
    ensures r.writes != [] ==> (r.writes[0] == WriteHash(fileHash.value) &&
      forall i | 1 <= i < |r.writes| :: !r.writes[i].WriteHash?)
    ensures forall id :: HasId(db.rows, id) ==> HasId(r.db.rows, id)
    ensures UniqueIds(db.rows) ==> UniqueIds(r.db.rows)
  {
    if !db.connected then Sync(db, [], Some(NotConnected))
    else match fileHash
      case None => Sync(db, [], Some(HashUnavailable))
      case Some(h) =>
        if h == PrevHash(db.config, faults.hashRead) then Sync(db, [], None)
        else
          var hw := UpdateFileHash(db.config, h, dialect, faults.hashWrite);
          var hashed := db.(config := hw.config);
          if hw.err.Some? then Sync(hashed, [WriteHash(h)], hw.err)
          else
            var pass := UpsertLines(db.rows, Entries(lines, now), 0, faults.rows);
            assert forall i | 1 <= i < |[WriteHash(h)] + pass.writes| ::
              ([WriteHash(h)] + pass.writes)[i] == pass.writes[i - 1];
            Sync(hashed.(rows := pass.rows), [WriteHash(h)] + pass.writes, pass.err)
  }

  /** Some data record of the file cannot be read or indexed. */
  predicate HasBadRecord(lines: seq<CsvLine>) {
    exists k | 1 <= k < |lines| :: Unreadable(lines[k], HeaderWidth(lines))
  }

  lemma EntriesBadRead(lines: seq<CsvLine>, now: Time)
    ensures StopsFrom(Entries(lines, now), 0) <==> HasBadRecord(lines)
  {
    var es := Entries(lines, now);
    if HasBadRecord(lines) {
      var k :| 1 <= k < |lines| && Unreadable(lines[k], HeaderWidth(lines));
      assert !es[k - 1].Row?;
    }
    if StopsFrom(es, 0) {
      var j :| 0 <= j < |es| && !es[j].Row?;
      assert Unreadable(lines[j + 1], HeaderWidth(lines));
    }
  }

  /** Every player the loop writes comes from a record at or after `i`. */
  lemma {:induction false} AppliedFrom(es: seq<Entry>, i: nat, faults: seq<RowFault>)
    ensures forall q | q in Applied(es, i, faults) :: exists j | i <= j < |es| :: es[j] == Row(q)
    decreases |es| - i
  {
    if i < |es| && es[i].Row? {
      AppliedFrom(es, i + 1, faults);
      var head := if FaultAt(faults, i) == Healthy then [es[i].player] else [];
      assert Applied(es, i, faults) == head + Applied(es, i + 1, faults);
      forall q | q in Applied(es, i, faults) ensures exists j | i <= j < |es| :: es[j] == Row(q) {
        if q in head {
          assert es[i] == Row(q);
        } else {
          assert q in Applied(es, i + 1, faults);
        }
      }
    }
  }

  /** The reload path with a persisted hash: the new hash is stored, each key
      written during the pass fetches the last player written for it, every
      other key fetches its old row, and the only error is a data record that
      cannot be read or indexed. */
  lemma Reloaded(db: Db, h: string, lines: seq<CsvLine>, now: Time, dialect: Dialect, faults: Faults)
    requires db.connected && h != PrevHash(db.config, faults.hashRead)
    requires UpdateFileHash(db.config, h, dialect, faults.hashWrite).err.None?
    ensures var r := PopulatePlayer(db, Some(h), lines, now, dialect, faults);
      && GetFileHash(r.db.config, false) == Success(h)
      && (forall id :: FetchPlayer(r.db.rows, id) == Overlay(db.rows, Applied(Entries(lines, now), 0, faults.rows), id))
      && (r.err.Some? <==> HasBadRecord(lines))
  {
    var es := Entries(lines, now);
    forall id ensures FetchPlayer(UpsertLines(db.rows, es, 0, faults.rows).rows, id) ==
      Overlay(db.rows, Applied(es, 0, faults.rows), id)
    {
      UpsertLinesOverlay(db.rows, es, 0, faults.rows, id);
    }
    EntriesBadRead(lines, now);
  }

  /** A failed hash write ends the cycle before any row is touched. */
  lemma HashWriteFailureKeepsRows(db: Db, h: string, lines: seq<CsvLine>, now: Time, dialect: Dialect, faults: Faults)
    requires db.connected && h != PrevHash(db.config, faults.hashRead)
    requires UpdateFileHash(db.config, h, dialect, faults.hashWrite).err.Some?
    ensures var r := PopulatePlayer(db, Some(h), lines, now, dialect, faults);
      r.db.rows == db.rows && r.writes == [WriteHash(h)] && r.err.Some?
  {
  }

  /** A key that no data record of the file carries fetches the same row
      before and after the loop. */
  lemma AbsentKeysUntouched(rows: seq<Player>, lines: seq<CsvLine>, now: Time, faults: seq<RowFault>, id: string)
    requires forall k | 1 <= k < |lines| && !Unreadable(lines[k], HeaderWidth(lines)) :: lines[k].fields[0] != id
    ensures FetchPlayer(UpsertLines(rows, Entries(lines, now), 0, faults).rows, id) == FetchPlayer(rows, id)
  {
    var es := Entries(lines, now);
    UpsertLinesOverlay(rows, es, 0, faults, id);
    AppliedFrom(es, 0, faults);
    EntriesKeys(lines, now);
    forall q | q in Applied(es, 0, faults) ensures q.playerID != id {
      var j :| 0 <= j < |es| && es[j] == Row(q);
    }
  }

  /** A parsed data record is keyed by its first field. */
  lemma EntriesKeys(lines: seq<CsvLine>, now: Time)
    ensures forall j | 0 <= j < |Entries(lines, now)| && Entries(lines, now)[j].Row? ::
      !Unreadable(lines[j + 1], HeaderWidth(lines)) && Entries(lines, now)[j].player.playerID == lines[j + 1].fields[0]
  {
  }

  /** Once a cycle has persisted the hash without faults, a second cycle over
      the same file writes nothing and changes nothing. */
  lemma SecondRunIsNoOp(db: Db, h: string, lines: seq<CsvLine>, now: Time, later: Time, dialect: Dialect, rowFaults: seq<RowFault>)
    requires db.connected
    ensures var first := PopulatePlayer(db, Some(h), lines, now, dialect, Faults(false, NoHashFault, rowFaults));
      var second := PopulatePlayer(first.db, Some(h), lines, later, dialect, Faults(false, NoHashFault, []));
      second.writes == [] && second.db == first.db && second.err.None?
  {
    var first := PopulatePlayer(db, Some(h), lines, now, dialect, Faults(false, NoHashFault, rowFaults));
    if h != PrevHash(db.config, false) {
      var hw := UpdateFileHash(db.config, h, dialect, NoHashFault);
      assert hw.config == db.config[ConfigId := h];
      assert first.db.config == hw.config;
    }
    assert PrevHash(first.db.config, false) == h;
  }

  /** A header with fewer than 24 fields binds every record to that count, so
      no data record can be parsed: the cycle stores the hash and then stops at
      the first data record without writing a row (with a panic when that
      record is a well-formed one), and the next cycle over the same file
      short-circuits, so the old table is kept until the file changes. */
  lemma ShortHeaderKeepsOldTable(db: Db, h: string, lines: seq<CsvLine>, now: Time, later: Time,
                                 dialect: Dialect, rowFaults: seq<RowFault>)
    requires db.connected && h != PrevHash(db.config, false)
    requires 2 <= |lines| && lines[0].Line? && |lines[0].fields| < ColumnCount
    ensures var first := PopulatePlayer(db, Some(h), lines, now, dialect, Faults(false, NoHashFault, rowFaults));
      var second := PopulatePlayer(first.db, Some(h), lines, later, dialect, Faults(false, NoHashFault, []));
      && first.err.Some?
      && (lines[1].Line? && |lines[1].fields| == |lines[0].fields| <==> first.err == Some(Panicked))
      && first.db.rows == db.rows
      && first.writes == [WriteHash(h)]
      && GetFileHash(first.db.config, false) == Success(h)
      && second.writes == [] && second.db == first.db
  {
  }

  /** With a header of at least 24 fields, every well-formed data record has
      all the columns the parser indexes, so a pass never panics. */
  lemma FullHeaderNeverPanics(rows: seq<Player>, lines: seq<CsvLine>, now: Time, faults: seq<RowFault>)
    requires 1 <= |lines| && lines[0].Line? && |lines[0].fields| >= ColumnCount
    ensures UpsertLines(rows, Entries(lines, now), 0, faults).err != Some(Panicked)
  {
  }
}

=== FILE: outcomes.dfy ===
/** Option and Result wrappers, and the error values the player service returns
    through Go's `error` results. */
module Outcomes {

  datatype Option<+T> = None | Some(value: T)

  /** A value, or the error that replaced it. */
  datatype Result<+T> = Success(value: T) | Failure(error: Err)

  datatype Err =
    | NoRows           // sql.ErrNoRows from a single-row query
    | DuplicateKey     // primary-key violation on INSERT
    | DriverError      // any other failure reported by the SQL driver
    | SyntaxError      // a statement the SQL engine refuses to parse
    | Offline          // reads refused while the bulk reload runs
    | NotConnected     // the database handle is nil
    | InvalidArgument  // an empty table name
    | PathMissing      // the CSV path does not exist
    | HashUnavailable  // the CSV file could not be opened or read for hashing
    | CsvMalformed     // the CSV reader rejected a line
    | Panicked         // an index out of range: the Go runtime stops the process
}

=== FILE: players.dfy ===
/** The `players` row: twenty-four columns, keyed by `playerID`. */
module Players {
  import opened Calendar

  datatype Player = Player(
    playerID: string,
    birthYear: int,
    birthMonth: int,
    birthDay: int,
    birthCountry: string,
    birthState: string,
    birthCity: string,
    deathYear: int,
    deathMonth: int,
    deathDay: int,
    deathCountry: string,
    deathState: string,
    deathCity: string,
    nameFirst: string,
    nameLast: string,
    nameGiven: string,
    weight: int,
    height: int,
    bats: string,
    throws: string,
    debut: Time,
    finalGame: Time,
    retroID: string,
    bbrefID: string
  )

  const ColumnCount: nat := 24

  /** A column value of any of the three column types. */
  datatype Value = IntValue(i: int) | TextValue(s: string) | TimeValue(t: Time)

  /** Column `i` of a row, in the table's (and the CSV file's) column order. */
  function Column(p: Player, i: nat): Value
    requires i < ColumnCount
  {
    match i
    case 0 => TextValue(p.playerID)
    case 1 => IntValue(p.birthYear)
    case 2 => IntValue(p.birthMonth)
    case 3 => IntValue(p.birthDay)
    case 4 => TextValue(p.birthCountry)
    case 5 => TextValue(p.birthState)
    case 6 => TextValue(p.birthCity)
    case 7 => IntValue(p.deathYear)
    case 8 => IntValue(p.deathMonth)
    case 9 => IntValue(p.deathDay)
    case 10 => TextValue(p.deathCountry)
    case 11 => TextValue(p.deathState)
    case 12 => TextValue(p.deathCity)
    case 13 => TextValue(p.nameFirst)
    case 14 => TextValue(p.nameLast)
    case 15 => TextValue(p.nameGiven)
    case 16 => IntValue(p.weight)
    case 17 => IntValue(p.height)
    case 18 => TextValue(p.bats)
    case 19 => TextValue(p.throws)
    case 20 => TimeValue(p.debut)
    case 21 => TimeValue(p.finalGame)
    case 22 => TextValue(p.retroID)
    case _ => TextValue(p.bbrefID)
  }

  /** Two rows agree on every column exactly when they are the same row. */
  lemma {:induction false} ColumnsDetermineRow(p: Player, q: Player)
    requires forall i | 0 <= i < ColumnCount :: Column(p, i) == Column(q, i)
    ensures p == q
  {
    assert Column(p, 0) == Column(q, 0);
    assert Column(p, 1) == Column(q, 1);
    assert Column(p, 2) == Column(q, 2);
    assert Column(p, 3) == Column(q, 3);
    assert Column(p, 4) == Column(q, 4);
    assert Column(p, 5) == Column(q, 5);
    assert Column(p, 6) == Column(q, 6);
    assert Column(p, 7) == Column(q, 7);
    assert Column(p, 8) == Column(q, 8);
    assert Column(p, 9) == Column(q, 9);
    assert Column(p, 10) == Column(q, 10);
    assert Column(p, 11) == Column(q, 11);
    assert Column(p, 12) == Column(q, 12);
    assert Column(p, 13) == Column(q, 13);
    assert Column(p, 14) == Column(q, 14);
    assert Column(p, 15) == Column(q, 15);
    assert Column(p, 16) == Column(q, 16);
    assert Column(p, 17) == Column(q, 17);
    assert Column(p, 18) == Column(q, 18);
    assert Column(p, 19) == Column(q, 19);
    assert Column(p, 20) == Column(q, 20);
    assert Column(p, 21) == Column(q, 21);
    assert Column(p, 22) == Column(q, 22);
    assert Column(p, 23) == Column(q, 23);
  }
}

=== FILE: record.dfy ===
/** The record parser: one CSV data line of twenty-four fields becomes one
    `Player` (`playerFromCsvLine`, `intFromString` and `dateFromString` in
    db/db.go, and `IntFromString` / `DateFromString` in the api-service utils). */
module Record {
  import opened Outcomes
  import opened Decimal
  import opened Calendar
  import opened Players

  /** `intFromString(s, fallback)`: the value of `s` when `strconv.Atoi` accepts
      it, otherwise the fallback. */
  function IntFromString(s: string, fallback: int): (n: int)
    ensures ParsesAsInt(s) ==> n == DecimalValue(s)
    ensures !ParsesAsInt(s) ==> n == fallback
  {
    match Atoi(s)
    case Some(v) => v
    case None => fallback
  }

  /** `dateFromString(s, fallback)`: midnight UTC of the date `s` spells in
      `YYYY-MM-DD` form, otherwise the fallback. */
  function DateFromString(s: string, fallback: Time): (t: Time)
    ensures ParseDate(s).Some? ==> t == MidnightUtc(ParseDate(s).value) && FormatDate(ParseDate(s).value) == s
    ensures ParseDate(s).None? ==> t == fallback
  {
    match ParseDate(s)
    case Some(d) => MidnightUtc(d)
    case None => fallback
  }

  /** A valid date written in `YYYY-MM-DD` form yields exactly that date, and
      any string that is not such a spelling yields the fallback. */
  lemma DateFromStringIff(s: string, d: Date, fallback: Time)
    ensures Formattable(d) && s == FormatDate(d) ==> DateFromString(s, fallback) == MidnightUtc(d)
    ensures (forall e :: Formattable(e) ==> s != FormatDate(e)) ==> DateFromString(s, fallback) == fallback
  {
    ParseDateIff(s, d);
    if ParseDate(s).Some? {
      ParseDateIff(s, ParseDate(s).value);
    }
  }

  /** How far before `now` the debut and final-game fallbacks lie: thirty and
      five 365-day years, in nanoseconds. */
  const DebutBackdate: int := 30 * 365 * 24 * NanosPerHour
  const FinalGameBackdate: int := 5 * 365 * 24 * NanosPerHour

  /** How a column is filled from its CSV field. */
  datatype ColumnKind =
    | KeyColumn
    | TextColumn
    | IntColumn(fallback: int)
    | DateColumn(backdate: int)

  /** The per-column ingestion table: which columns are integers and dates, and
      the default each one takes when its field is present but unparsable. */
  function Kind(i: nat): ColumnKind
    requires i < ColumnCount
  {
    match i
    case 0 => KeyColumn
    case 1 => IntColumn(1970)
    case 2 => IntColumn(7)
    case 3 => IntColumn(11)
    case 7 => IntColumn(1998)
    case 8 => IntColumn(4)
    case 9 => IntColumn(21)
    case 16 => IntColumn(180)
    case 17 => IntColumn(75)
    case 20 => DateColumn(DebutBackdate)
    case 21 => DateColumn(FinalGameBackdate)
    case _ => TextColumn
  }

  /** The zero value a column keeps when its field is empty. */
  function ZeroOf(kind: ColumnKind): Value {
    match kind
    case IntColumn(_) => IntValue(0)
    case DateColumn(_) => TimeValue(ZeroTime)
    case _ => TextValue("")
  }

  /** The lenient-ingestion rule for one field: empty leaves the zero value,
      text is copied, numbers and dates are parsed with the column's fallback,
      and a date fallback is counted back from `now`. */
  function FieldValue(kind: ColumnKind, s: string, now: Time): Value {
    match kind
    case KeyColumn => TextValue(s)
    case TextColumn => TextValue(s)
    case IntColumn(fallback) =>
      if s == "" then ZeroOf(kind) else IntValue(IntFromString(s, fallback))
    case DateColumn(backdate) =>
      if s == "" then ZeroOf(kind) else TimeValue(DateFromString(s, Add(now, -backdate)))
  }

  function IntField(s: string, fallback: int): int {
    if s != "" then IntFromString(s, fallback) else 0
  }

  function DateField(s: string, fallback: Time): Time {
    if s != "" then DateFromString(s, fallback) else ZeroTime
  }

  /** `playerFromCsvLine(rec)`, with `time.Now()` passed in as `now`: column
      `i` of the row is field `i` read as its column's kind, so text is copied
      verbatim, numbers and dates are parsed with their defaults, and every
      empty field is the zero value. The source indexes `rec[0]` to `rec[23]`
      unchecked, so shorter records are outside its domain. */
  function ParseRecord(rec: seq<string>, now: Time): (r: Player)
    requires |rec| >= ColumnCount
    ensures forall i | 0 <= i < ColumnCount :: Column(r, i) == FieldValue(Kind(i), rec[i], now)
  {
    FieldsAssembled(rec, now);
    PlayerFromFields(rec, now)
  }

  /** The field-by-field assembly of `playerFromCsvLine`. */
  function PlayerFromFields(rec: seq<string>, now: Time): Player
    requires |rec| >= ColumnCount
  {
    var defaultDebut := Add(now, -DebutBackdate);
    var defaultFinal := Add(now, -FinalGameBackdate);
    Player(
      playerID := rec[0],
      birthYear := IntField(rec[1], 1970),
      birthMonth := IntField(rec[2], 7),
      birthDay := IntField(rec[3], 11),
      birthCountry := rec[4],
      birthState := rec[5],
      birthCity := rec[6],
      deathYear := IntField(rec[7], 1998),
      deathMonth := IntField(rec[8], 4),
      deathDay := IntField(rec[9], 21),
      deathCountry := rec[10],
      deathState := rec[11],
      deathCity := rec[12],
      nameFirst := rec[13],
      nameLast := rec[14],
      nameGiven := rec[15],
      weight := IntField(rec[16], 180),
      height := IntField(rec[17], 75),
      bats := rec[18],
      throws := rec[19],
      debut := DateField(rec[20], defaultDebut),
      finalGame := DateField(rec[21], defaultFinal),
      retroID := rec[22],
      bbrefID := rec[23]
    )
  }

  /** Column `i` of the parsed row, for the columns `lo` to `lo + 5`, is field
      `i` read as its column's kind. */
  predicate ColumnsParsed(rec: seq<string>, now: Time, lo: nat, hi: nat)
    requires |rec| >= ColumnCount && lo <= hi <= ColumnCount
  {
    forall i | lo <= i < hi :: Column(PlayerFromFields(rec, now), i) == FieldValue(Kind(i), rec[i], now)
  }

  lemma AssembledBirth(rec: seq<string>, now: Time)
    requires |rec| >= ColumnCount
    ensures ColumnsParsed(rec, now, 0, 6)
  {
    var p := PlayerFromFields(rec, now);
    forall i | 0 <= i < 6
      ensures Column(p, i) == FieldValue(Kind(i), rec[i], now)
    {
      if i == 0 {} else if i == 1 {} else if i == 2 {} else if i == 3 {} else if i == 4 {} else {}
    }
  }

  lemma AssembledDeath(rec: seq<string>, now: Time)
    requires |rec| >= ColumnCount
    ensures ColumnsParsed(rec, now, 6, 12)
  {
    var p := PlayerFromFields(rec, now);
    forall i | 6 <= i < 12
      ensures Column(p, i) == FieldValue(Kind(i), rec[i], now)
    {
      if i == 6 {} else if i == 7 {} else if i == 8 {} else if i == 9 {} else if i == 10 {} else {}
    }
  }

  lemma AssembledNames(rec: seq<string>, now: Time)
    requires |rec| >= ColumnCount
    ensures ColumnsParsed(rec, now, 12, 18)
  {
    var p := PlayerFromFields(rec, now);
    forall i | 12 <= i < 18
      ensures Column(p, i) == FieldValue(Kind(i), rec[i], now)
    {
      if i == 12 {} else if i == 13 {} else if i == 14 {} else if i == 15 {} else if i == 16 {} else {}
    }
  }

  lemma AssembledHands(rec: seq<string>, now: Time)
    requires |rec| >= ColumnCount
    ensures ColumnsParsed(rec, now, 18, 20)
  {
    var p := PlayerFromFields(rec, now);
    forall i | 18 <= i < 20
      ensures Column(p, i) == FieldValue(Kind(i), rec[i], now)
    {
      if i == 18 {} else {}
    }
  }

  lemma AssembledDates(rec: seq<string>, now: Time)
    requires |rec| >= ColumnCount
    ensures ColumnsParsed(rec, now, 20, 22)
  {
    var p := PlayerFromFields(rec, now);
    forall i | 20 <= i < 22
      ensures Column(p, i) == FieldValue(Kind(i), rec[i], now)
    {
      if i == 20 {} else {}
    }
  }

  lemma AssembledIds(rec: seq<string>, now: Time)
    requires |rec| >= ColumnCount
    ensures ColumnsParsed(rec, now, 22, 24)
  {
    var p := PlayerFromFields(rec, now);
    forall i | 22 <= i < 24
      ensures Column(p, i) == FieldValue(Kind(i), rec[i], now)
    {
      if i == 22 {} else {}
    }
  }

  lemma FieldsAssembled(rec: seq<string>, now: Time)
    requires |rec| >= ColumnCount
    ensures forall i | 0 <= i < ColumnCount :: Column(PlayerFromFields(rec, now), i) == FieldValue(Kind(i), rec[i], now)
  {
    AssembledBirth(rec, now);
    AssembledDeath(rec, now);
    AssembledNames(rec, now);
    AssembledHands(rec, now);
    AssembledDates(rec, now);
    AssembledIds(rec, now);
    forall i | 0 <= i < ColumnCount
      ensures Column(PlayerFromFields(rec, now), i) == FieldValue(Kind(i), rec[i], now)
    {
      if i < 6 {
        assert ColumnsParsed(rec, now, 0, 6);
      } else if i < 12 {
        assert ColumnsParsed(rec, now, 6, 12);
      } else if i < 18 {
        assert ColumnsParsed(rec, now, 12, 18);
      } else if i < 20 {
        assert ColumnsParsed(rec, now, 18, 20);
      } else if i < 22 {
        assert ColumnsParsed(rec, now, 20, 22);
      } else {
        assert ColumnsParsed(rec, now, 22, 24);
      }
    }
  }

  /** The key is copied verbatim, even when it is empty, and every other text
      column holds its field verbatim (an empty field and the zero string agree). */
  lemma ParseRecordCopiesText(rec: seq<string>, now: Time)
    requires |rec| >= ColumnCount
    ensures ParseRecord(rec, now).playerID == rec[0]
    ensures forall i | 0 <= i < ColumnCount && (Kind(i).TextColumn? || Kind(i).KeyColumn?) ::
              Column(ParseRecord(rec, now), i) == TextValue(rec[i])
  {
  }

  /** An empty field leaves its column at the zero value of its type. */
  lemma ParseRecordEmptyIsZero(rec: seq<string>, now: Time)
    requires |rec| >= ColumnCount
    ensures forall i | 1 <= i < ColumnCount && rec[i] == "" ::
              Column(ParseRecord(rec, now), i) == ZeroOf(Kind(i))
  {
  }

  /** A non-empty number field takes its parsed value, or the column's fixed
      default when `strconv.Atoi` rejects it. */
  lemma ParseRecordIntDefaults(rec: seq<string>, now: Time)
    requires |rec| >= ColumnCount
    ensures var p := ParseRecord(rec, now);
      && (rec[1] != "" ==> p.birthYear == if ParsesAsInt(rec[1]) then DecimalValue(rec[1]) else 1970)
      && (rec[2] != "" ==> p.birthMonth == if ParsesAsInt(rec[2]) then DecimalValue(rec[2]) else 7)
      && (rec[3] != "" ==> p.birthDay == if ParsesAsInt(rec[3]) then DecimalValue(rec[3]) else 11)
      && (rec[7] != "" ==> p.deathYear == if ParsesAsInt(rec[7]) then DecimalValue(rec[7]) else 1998)
      && (rec[8] != "" ==> p.deathMonth == if ParsesAsInt(rec[8]) then DecimalValue(rec[8]) else 4)
      && (rec[9] != "" ==> p.deathDay == if ParsesAsInt(rec[9]) then DecimalValue(rec[9]) else 21)
      && (rec[16] != "" ==> p.weight == if ParsesAsInt(rec[16]) then DecimalValue(rec[16]) else 180)
      && (rec[17] != "" ==> p.height == if ParsesAsInt(rec[17]) then DecimalValue(rec[17]) else 75)
  {
  }

  /** A non-empty date field that is not a valid `YYYY-MM-DD` falls back to
      thirty (debut) or five (final game) 365-day years before `now`; a valid
      one yields midnight UTC of that date. */
  lemma ParseRecordDateDefaults(rec: seq<string>, now: Time)
    requires |rec| >= ColumnCount
    ensures var p := ParseRecord(rec, now);
      && (rec[20] != "" && ParseDate(rec[20]).None? ==>
            p.debut == Time(now.nanos - 30 * 365 * 24 * 3600 * 1_000_000_000))
      && (rec[21] != "" && ParseDate(rec[21]).None? ==>
            p.finalGame == Time(now.nanos - 5 * 365 * 24 * 3600 * 1_000_000_000))
      && (ParseDate(rec[20]).Some? ==> p.debut == MidnightUtc(ParseDate(rec[20]).value))
      && (ParseDate(rec[21]).Some? ==> p.finalGame == MidnightUtc(ParseDate(rec[21]).value))
  {
  }

  /** The time a date column holds for an optional date. */
  function DateTime(d: Option<Date>): Time
    requires d.Some? ==> ValidDate(d.value)
  {
    match d
    case None => ZeroTime
    case Some(date) => MidnightUtc(date)
  }

  predicate Renderable(d: Option<Date>) {
    d.Some? ==> Formattable(d.value)
  }

  function RenderDate(d: Option<Date>): string
    requires Renderable(d)
  {
    match d
    case None => ""
    case Some(date) => FormatDate(date)
  }

  /** A CSV line for a player: numbers in decimal, dates as `YYYY-MM-DD` (or
      empty for the zero time), text verbatim. The two dates are passed as
      calendar dates since a `Time` does not name its date. */
  function RenderRecord(p: Player, debut: Option<Date>, finalGame: Option<Date>): (rec: seq<string>)
    requires Renderable(debut) && Renderable(finalGame)
    ensures |rec| == ColumnCount
  {
    [p.playerID, FormatInt(p.birthYear), FormatInt(p.birthMonth), FormatInt(p.birthDay),
     p.birthCountry, p.birthState, p.birthCity,
     FormatInt(p.deathYear), FormatInt(p.deathMonth), FormatInt(p.deathDay),
     p.deathCountry, p.deathState, p.deathCity,
     p.nameFirst, p.nameLast, p.nameGiven,
     FormatInt(p.weight), FormatInt(p.height), p.bats, p.throws,
     RenderDate(debut), RenderDate(finalGame), p.retroID, p.bbrefID]
  }

  /** Players whose numbers fit Go's `int` and whose dates are midnight UTC of
      a four-digit-year date (or zero). */
  predicate Representable(p: Player, debut: Option<Date>, finalGame: Option<Date>) {
    && InInt64(p.birthYear) && InInt64(p.birthMonth) && InInt64(p.birthDay)
    && InInt64(p.deathYear) && InInt64(p.deathMonth) && InInt64(p.deathDay)
    && InInt64(p.weight) && InInt64(p.height)
    && Renderable(debut) && Renderable(finalGame)
    && p.debut == DateTime(debut) && p.finalGame == DateTime(finalGame)
  }

  lemma IntFieldRoundTrip(n: int, fallback: int)
    requires InInt64(n)
    ensures FormatInt(n) != "" && IntFromString(FormatInt(n), fallback) == n
  {
    AtoiFormatInt(n);
  }

  lemma DateFieldRoundTrip(d: Option<Date>, now: Time)
    requires Renderable(d)
    ensures forall b :: FieldValue(DateColumn(b), RenderDate(d), now) == TimeValue(DateTime(d))
  {
    if d.Some? {
      FormatDateParses(d.value);
    }
  }

  /** Rendering a player as a CSV line and parsing it back gives the same player,
      whatever the clock says. */
  lemma {:induction false} ParseRenderedRecord(p: Player, debut: Option<Date>, finalGame: Option<Date>, now: Time)
    requires Representable(p, debut, finalGame)
    ensures ParseRecord(RenderRecord(p, debut, finalGame), now) == p
  {
    var rec := RenderRecord(p, debut, finalGame);
    var q := PlayerFromFields(rec, now);
    FieldsAssembled(rec, now);
    IntFieldRoundTrip(p.birthYear, 1970);
    IntFieldRoundTrip(p.birthMonth, 7);
    IntFieldRoundTrip(p.birthDay, 11);
    IntFieldRoundTrip(p.deathYear, 1998);
    IntFieldRoundTrip(p.deathMonth, 4);
    IntFieldRoundTrip(p.deathDay, 21);
    IntFieldRoundTrip(p.weight, 180);
    IntFieldRoundTrip(p.height, 75);
    DateFieldRoundTrip(debut, now);
    DateFieldRoundTrip(finalGame, now);
    forall i | 0 <= i < ColumnCount
      ensures Column(q, i) == Column(p, i)
    {
      assert Column(q, i) == FieldValue(Kind(i), rec[i], now);
    }
    ColumnsDetermineRow(q, p);
    assert ParseRecord(rec, now) == q;
  }
}

=== FILE: store.dfy ===
/** The SQL store of db/db.go and api-service/db/db.go, abstracted: the
    `players` table is a sequence of rows in storage order whose `playerID`s
    are unique (the primary key), and the `config` table is a map from row id
    to `fileHash`. Statements are atomic; driver failures that the callers
    react to are passed in as faults. */
module Store {
  import opened Outcomes
  import opened Players
  import EnvFlag

  /** The SQL engine behind the store. The two differ in what `RowsAffected`
      counts for an UPDATE and in how `LIMIT` treats negative numbers. */
  datatype Dialect = Sqlite | MySql

  /** db/db.go uses MySQL when `USE_MYSQL` is one of the truthy tokens, in any
      case and with white space around it, and SQLite otherwise. */
  function DialectFor(useMysql: string): (d: Dialect)
    ensures d == MySql <==> exists lo, hi | 0 <= lo <= hi <= |useMysql| ::
      EnvFlag.AllSpace(useMysql[..lo]) && EnvFlag.AllSpace(useMysql[hi..]) && EnvFlag.SpellsToken(useMysql[lo..hi])
  {
    EnvFlag.GetEnvVarAsBoolSpec(useMysql, false);
    if EnvFlag.GetEnvVarAsBool(useMysql, false) then MySql else Sqlite
  }

  predicate HasId(rows: seq<Player>, id: string) {
    exists i | 0 <= i < |rows| :: rows[i].playerID == id
  }

  /** The primary-key invariant of the `players` table. */
  predicate UniqueIds(rows: seq<Player>) {
    forall i, j | 0 <= i < j < |rows| :: rows[i].playerID != rows[j].playerID
  }

  lemma HasIdTail(rows: seq<Player>, id: string)
    requires |rows| > 0
    ensures HasId(rows, id) <==> rows[0].playerID == id || HasId(rows[1..], id)
  {
    if HasId(rows[1..], id) {
      var j :| 0 <= j < |rows| - 1 && rows[1..][j].playerID == id;
      assert rows[j + 1].playerID == id;
    }
    if HasId(rows, id) && rows[0].playerID != id {
      var i :| 0 <= i < |rows| && rows[i].playerID == id;
      assert rows[1..][i - 1].playerID == id;
    }
  }

  /** `FetchPlayer(id)`: the first row with that key, or absent (with no
      error) when there is none. */
  function FetchPlayer(rows: seq<Player>, id: string): (r: Option<Player>)
    ensures r.None? <==> !HasId(rows, id)
    ensures r.Some? ==> r.value in rows && r.value.playerID == id
  {
    if |rows| == 0 then None
    else
      HasIdTail(rows, id);
      if rows[0].playerID == id then Some(rows[0]) else FetchPlayer(rows[1..], id)
  }

  /** Under the key invariant, fetching a row's key returns that row. */
  lemma {:induction false} FetchPlayerFindsRow(rows: seq<Player>, i: nat)
    requires UniqueIds(rows) && i < |rows|
    ensures FetchPlayer(rows, rows[i].playerID) == Some(rows[i])
  {
    if i > 0 {
      assert rows[0].playerID != rows[i].playerID;
      assert rows[1..][i - 1] == rows[i];
      FetchPlayerFindsRow(rows[1..], i - 1);
    }
  }

  /** `DoesPlayerExist(id)`: true exactly when a row has that key; absence is
      `false` with no error. */
  function DoesPlayerExist(rows: seq<Player>, id: string): (b: bool)
    ensures b <==> exists i | 0 <= i < |rows| :: rows[i].playerID == id
  {
    FetchPlayer(rows, id).Some?
  }

  lemma HasIdAppend(rows: seq<Player>, p: Player, id: string)
    ensures HasId(rows + [p], id) <==> HasId(rows, id) || p.playerID == id
  {
    if HasId(rows, id) {
      var i :| 0 <= i < |rows| && rows[i].playerID == id;
      assert (rows + [p])[i] == rows[i];
    }
    if p.playerID == id {
      assert (rows + [p])[|rows|] == p;
    }
  }

  lemma {:induction false} FetchAppend(rows: seq<Player>, p: Player, id: string)
    ensures FetchPlayer(rows + [p], id) ==
      if HasId(rows, id) then FetchPlayer(rows, id)
      else if p.playerID == id then Some(p) else None
  {
    if |rows| > 0 {
      assert (rows + [p])[1..] == rows[1..] + [p];
      HasIdTail(rows, id);
      FetchAppend(rows[1..], p, id);
    }
  }

  /** `InsertPlayer(p)`: a duplicate key is refused; otherwise afterwards the
      key fetches `p` and every other key fetches what it did before. */
  function InsertPlayer(rows: seq<Player>, p: Player): (r: Result<seq<Player>>)
    ensures r.Failure? <==> HasId(rows, p.playerID)
    ensures r.Failure? ==> r.error == DuplicateKey
    ensures r.Success? ==> FetchPlayer(r.value, p.playerID) == Some(p)
    ensures r.Success? ==> forall id | id != p.playerID :: FetchPlayer(r.value, id) == FetchPlayer(rows, id)
    ensures r.Success? ==> forall id :: HasId(r.value, id) <==> HasId(rows, id) || id == p.playerID
    ensures r.Success? ==> |r.value| == |rows| + 1 && (UniqueIds(rows) ==> UniqueIds(r.value))
  {
    if DoesPlayerExist(rows, p.playerID) then Failure(DuplicateKey)
    else
      assert forall id :: HasId(rows + [p], id) <==> HasId(rows, id) || id == p.playerID by {
        forall id { HasIdAppend(rows, p, id); }
      }
      FetchAppend(rows, p, p.playerID);
      assert forall id :: (FetchPlayer(rows + [p], id) ==
        if HasId(rows, id) then FetchPlayer(rows, id) else if p.playerID == id then Some(p) else None)
      by {
        forall id { FetchAppend(rows, p, id); }
      }
      Success(rows + [p])
  }

  /** `UpdatePlayer(p)`: overwrites the row with `p`'s key and nothing else; a
      missing key changes nothing and is not an error. */
  function UpdatePlayer(rows: seq<Player>, p: Player): (r: seq<Player>)
    ensures |r| == |rows|
    ensures !HasId(rows, p.playerID) ==> r == rows
    ensures forall id :: HasId(r, id) <==> HasId(rows, id)
    ensures UniqueIds(rows) ==> UniqueIds(r)
  {
    var r := seq(|rows|, i requires 0 <= i < |rows| =>
      if rows[i].playerID == p.playerID then p else rows[i]);
    assert forall i | 0 <= i < |rows| :: r[i].playerID == rows[i].playerID;
    r
  }

  /** After an update the key fetches `p` if it was present; every other key
      fetches what it did before. */
  lemma {:induction false} UpdatePlayerFetch(rows: seq<Player>, p: Player, id: string)
    ensures FetchPlayer(UpdatePlayer(rows, p), id) ==
      if id == p.playerID && HasId(rows, id) then Some(p) else FetchPlayer(rows, id)
  {
    if |rows| > 0 {
      var r := UpdatePlayer(rows, p);
      assert r[1..] == UpdatePlayer(rows[1..], p);
      HasIdTail(rows, id);
      UpdatePlayerFetch(rows[1..], p, id);
    }
  }

  /** `DeletePlayer(id)`: removes the row with that key and keeps every other
      row, in order. */
  function DeletePlayer(rows: seq<Player>, id: string): (r: seq<Player>)
    ensures !HasId(r, id)
    ensures forall q :: q in r <==> q in rows && q.playerID != id
    ensures forall other | other != id :: FetchPlayer(r, other) == FetchPlayer(rows, other)
    ensures UniqueIds(rows) ==> UniqueIds(r)
  {
    if |rows| == 0 then []
    else
      var tail := DeletePlayer(rows[1..], id);
      HasIdTail(rows, id);
      if rows[0].playerID == id then
        assert forall other | other != id :: FetchPlayer(rows, other) == FetchPlayer(rows[1..], other);
        tail
      else
        var r := [rows[0]] + tail;
        assert r[1..] == tail;
        assert forall x :: HasId(r, x) <==> rows[0].playerID == x || HasId(tail, x) by {
          forall x { HasIdTail(r, x); }
        }
        assert UniqueIds(rows) ==> UniqueIds(r) by {
          if UniqueIds(rows) {
            forall j | 0 < j < |r| ensures r[0].playerID != r[j].playerID {
              assert r[j] in tail;
              assert r[j] in rows[1..];
              var k :| 0 <= k < |rows| - 1 && rows[1..][k] == r[j];
              assert rows[k + 1] == r[j];
            }
          }
        }
        r
  }

  function Min(a: int, b: int): int {
    if a <= b then a else b
  }

  /** The rows `LIMIT offset, count` selects once both numbers have been made
      acceptable: a negative offset counts as zero and a negative count as no
      limit (SQLite's reading of them). */
  function Window(rows: seq<Player>, offset: int, count: int): (r: seq<Player>)
    ensures exists lo, hi | 0 <= lo <= hi <= |rows| :: r == rows[lo..hi]
  {
    var lo := if offset < 0 then 0 else Min(offset, |rows|);
    var hi := if count < 0 then |rows| else Min(lo + count, |rows|);
    rows[lo..hi]
  }

  /** `FetchPlayers(page, pageSize)`: all rows for `page <= 0`; otherwise
      `LIMIT (page-1)*pageSize, pageSize`, which MySQL refuses to parse when
      either number is negative. */
  function FetchPlayers(rows: seq<Player>, page: int, pageSize: int, dialect: Dialect): (r: Result<seq<Player>>)
    ensures page <= 0 ==> r == Success(rows)
    ensures page > 0 && pageSize >= 0 ==>
      var offset := (page - 1) * pageSize;
      offset >= 0 && r == Success(rows[Min(offset, |rows|)..Min(offset + pageSize, |rows|)])
    ensures r.Failure? <==> dialect == MySql && page > 0 && pageSize < 0
    ensures r.Failure? ==> r.error == SyntaxError
    ensures dialect == Sqlite && page > 0 && pageSize < 0 ==> r == Success(rows)
  {
    if page <= 0 then Success(rows)
    else
      var offset := (page - 1) * pageSize;
      assert pageSize >= 0 ==> offset >= 0 by {
        if pageSize >= 0 { NonNegativeProduct(page - 1, pageSize); }
      }
      assert pageSize < 0 ==> offset <= 0 by {
        if pageSize < 0 { NonPositiveProduct(page - 1, pageSize); }
      }
      if dialect == MySql && (offset < 0 || pageSize < 0) then Failure(SyntaxError)
      else
        assert pageSize < 0 ==> Window(rows, offset, pageSize) == rows[0..|rows|] == rows;
        Success(Window(rows, offset, pageSize))
  }

  lemma NonNegativeProduct(a: nat, b: nat)
    ensures a * b >= 0
  {
  }

  lemma NonPositiveProduct(a: nat, b: int)
    requires b < 0
    ensures a * b <= 0
  {
  }

  /** Pages `1..n` of a non-negative size, concatenated. */
  function PagesThrough(rows: seq<Player>, n: nat, pageSize: nat, dialect: Dialect): seq<Player> {
    if n == 0 then [] else PagesThrough(rows, n - 1, pageSize, dialect) + FetchPlayers(rows, n, pageSize, dialect).value
  }

  /** Consecutive pages tile the table in storage order: the first `n` pages
      are exactly the first `n * pageSize` rows (or all of them). */
  lemma {:induction false} PagesTile(rows: seq<Player>, n: nat, pageSize: nat, dialect: Dialect)
    ensures PagesThrough(rows, n, pageSize, dialect) == rows[..Min(n * pageSize, |rows|)]
  {
    if n > 0 {
      PagesTile(rows, n - 1, pageSize, dialect);
      assert n * pageSize == (n - 1) * pageSize + pageSize;
      NonNegativeProduct(n - 1, pageSize);
      var a := Min((n - 1) * pageSize, |rows|);
      var b := Min(n * pageSize, |rows|);
      assert rows[..b] == rows[..a] + rows[a..b];
    }
  }

  const ConfigId: int := 1

  /** Which statement of the hash upsert the driver fails, if any. */
  datatype HashFault = NoHashFault | UpdateFails | RowsAffectedFails | InsertFails

  /** `GetFileHash`: the `fileHash` of config row 1; no row is `sql.ErrNoRows`. */
  function GetFileHash(config: map<int, string>, readFails: bool): (r: Result<string>)
    ensures r.Success? <==> !readFails && ConfigId in config
    ensures r.Success? ==> r.value == config[ConfigId]
    ensures r.Failure? ==> r.error == if readFails then DriverError else NoRows
  {
    if readFails then Failure(DriverError)
    else if ConfigId in config then Success(config[ConfigId])
    else Failure(NoRows)
  }

  /** The previous hash as both reconcilers take it: an unreadable one (read
      error or no config row) counts as "". */
  function PrevHash(config: map<int, string>, readFails: bool): (h: string)
    ensures !readFails && ConfigId in config ==> h == config[ConfigId]
    ensures readFails || ConfigId !in config ==> h == ""
  {
    match GetFileHash(config, readFails)
    case Success(h) => h
    case Failure(_) => ""
  }

  /** What the engine reports for `UPDATE config SET fileHash = ? WHERE id = 1`:
      SQLite counts matched rows; MySQL (go-sql-driver without
      `clientFoundRows`) counts changed rows, so rewriting the same hash is 0. */
  function RowsAffected(config: map<int, string>, hash: string, dialect: Dialect): nat {
    if ConfigId !in config then 0
    else if dialect == MySql && config[ConfigId] == hash then 0
    else 1
  }

  datatype HashUpdate = HashUpdate(config: map<int, string>, insertIssued: bool, err: Option<Err>)

  /** `UpdateFileHash(hash)` / `updateFileHash(hash)`: UPDATE row 1, and INSERT
      it only when the UPDATE reports zero affected rows. */
  function UpdateFileHash(config: map<int, string>, hash: string, dialect: Dialect, fault: HashFault): (r: HashUpdate)
    ensures fault == NoHashFault ==> r.config == config[ConfigId := hash]
    ensures r.config == config || r.config == config[ConfigId := hash]
    ensures r.insertIssued ==> RowsAffected(config, hash, dialect) == 0
    ensures fault == NoHashFault ==> (r.insertIssued <==> RowsAffected(config, hash, dialect) == 0)
    ensures r.err.None? ==> ConfigId in r.config && r.config[ConfigId] == hash
    ensures fault == NoHashFault ==>
      (r.err.None? <==> !(dialect == MySql && ConfigId in config && config[ConfigId] == hash))
    ensures fault == UpdateFails ==> r.config == config && r.err.Some?
  {
    if fault == UpdateFails then HashUpdate(config, false, Some(DriverError))
    else
      var updated := if ConfigId in config then config[ConfigId := hash] else config;
      if fault == RowsAffectedFails then HashUpdate(updated, false, Some(DriverError))
      else if RowsAffected(config, hash, dialect) != 0 then HashUpdate(updated, false, None)
      else if fault == InsertFails then HashUpdate(updated, true, Some(DriverError))
      else if ConfigId in updated then HashUpdate(updated, true, Some(DuplicateKey))
      else HashUpdate(updated[ConfigId := hash], true, None)
  }

  /** After a fault-free hash write the next read returns that hash. */
  lemma HashRoundTrip(config: map<int, string>, hash: string, dialect: Dialect)
    ensures GetFileHash(UpdateFileHash(config, hash, dialect, NoHashFault).config, false) == Success(hash)
  {
  }

  /** `LOAD DATA LOCAL INFILE` into a table: rows whose key is already present
      are skipped (LOCAL implies IGNORE), the rest are appended in file order. */
  function InsertIgnore(rows: seq<Player>, incoming: seq<Player>): seq<Player>
    decreases |incoming|
  {
    if |incoming| == 0 then rows
    else
      var next := if DoesPlayerExist(rows, incoming[0].playerID) then rows else rows + [incoming[0]];
      InsertIgnore(next, incoming[1..])
  }

  /** After an ignoring load a key fetches its old row if it had one, else its
      first row in the loaded data; the key invariant is kept. */
  lemma {:induction false} InsertIgnoreEffect(rows: seq<Player>, incoming: seq<Player>)
    ensures forall id :: (FetchPlayer(InsertIgnore(rows, incoming), id) ==
      if HasId(rows, id) then FetchPlayer(rows, id) else FetchPlayer(incoming, id))
    ensures UniqueIds(rows) ==> UniqueIds(InsertIgnore(rows, incoming))
    decreases |incoming|
  {
    if |incoming| > 0 {
      var p := incoming[0];
      var next := if DoesPlayerExist(rows, p.playerID) then rows else rows + [p];
      InsertIgnoreEffect(next, incoming[1..]);
      forall id
        ensures FetchPlayer(InsertIgnore(rows, incoming), id) ==
          if HasId(rows, id) then FetchPlayer(rows, id) else FetchPlayer(incoming, id)
      {
        HasIdTail(incoming, id);
        FetchAppend(rows, p, id);
        if !DoesPlayerExist(rows, p.playerID) {
          assert HasId(next, id) <==> HasId(rows, id) || p.playerID == id by {
            if p.playerID == id { assert next[|rows|].playerID == id; }
            if HasId(next, id) && !HasId(rows, id) {
              var i :| 0 <= i < |next| && next[i].playerID == id;
              if i < |rows| { assert rows[i].playerID == id; }
            }
            if HasId(rows, id) {
              var i :| 0 <= i < |rows| && rows[i].playerID == id;
              assert next[i].playerID == id;
            }
          }
        }
      }
      if UniqueIds(rows) && !DoesPlayerExist(rows, p.playerID) {
        assert UniqueIds(next);
      }
    }
  }
}
